=== FILE: README.md ===
# OpenID4VCI issuer and OpenID4VP verifier — a Dafny model

This project models the core of an Express demo. The demo issues verifiable
credentials over OpenID for Verifiable Credential Issuance (OpenID4VCI). It
also verifies presentations of them over OpenID for Verifiable Presentations
(OpenID4VP). The model covers:

- the credential signer, which builds the credential payload and checks
  presentations and their claims;
- the issuance session router;
- the two verification routers;
- the `/authorize` and `/token` handlers of the application;
- the `/credential`, `/batch_credential`, `/deferred_credential` and
  `/verify_credential` endpoints.

Each handler is a pure function. It takes the store it reads (sessions,
codes, request objects), the request, the clock reading and any oracles. It
returns `Step(store', reply)`. The reply is one of:

- `Ok` for a 200 JSON body;
- `Redirect` for a 302;
- `Fail(status, error)` for an error with an error code;
- `Refuse(status, body)` for an error whose body says more than a code.

A JavaScript `Map` is modelled by `OrderedMap.OMap`. It keeps the keys in
insertion order next to a Dafny `map`. `OrderedMap.Find` is the first value
in iteration order that satisfies a predicate, and `OrderedMap.Sweep` is a
cleanup pass that deletes entries as it goes.

| module | file | what it models |
|---|---|---|
| `Common` | common.dfy | JSON primitives and JavaScript truthiness, `||` defaults, replies, configured URLs |
| `OrderedMap` | ordered_map.dfy | insertion-ordered maps: find-first, set, delete, sweep |
| `CredentialSigner` | credential_signer.dfy | lib/credentialSigner.js |
| `Issuance` | issuance.dfy | routes/openid4vcIssuance.js |
| `Verification` | verification.dfy | routes/openid4vpVerification.js |
| `OpenId4Vp` | openid4vp.dfy | routes/openid4vp.js |
| `Authorization` | authorization.dfy | app.js, the `/authorize` and `/token` handlers |
| `CredentialEndpoints` | credential_endpoints.dfy | routes/openid4vc.js |

Parameters stand for everything that is not pure logic:

- **JWT verification** (`CredentialSigner.JwtVerifier`) is a function from
  a token and the clock to `Verified(payload)`, `BadSignature` or
  `TokenExpired`.
- **JWT decoding without verification** (`SubjectDecoder`) returns the
  decoded `credentialSubject` of a token, if it has one.
- **Signing** (`Signer`) maps a credential payload to its compact JWT.
- **URL parsing** (`isUrl`) says whether `new URL(...)` would accept a
  string.
- **Fresh identifiers** (`uuidv4`, `crypto.randomBytes`) are fields of an
  `ids` parameter.
- **The clock** is a `nowMs` parameter.

Behaviours of the code worth knowing, which the model keeps as they are:

- The issuance `/callback` looks up the session whose stored `state` equals
  the query's `state`. Sessions never store a `state`. So a callback that
  carries a `state` finds nothing and answers 400. A callback without one
  takes the oldest live session.
- A verification callback can overturn a `completed` session: a later
  callback whose token does not verify marks the session `failed`.
- routes/openid4vpVerification.js is modelled even though app.js does not
  mount it.
- The verification `/presentation-callback` logs `vp_token?.substring(0, 50)`
  before it checks the token. A token that is a number or a boolean makes that
  call throw, so the route answers 500 and changes nothing.
- `config.verifierUrl` is never defined. `OpenId4Vp.CreateRequestObject` and
  the engine `OpenId4Vp.Handle` therefore take the verifier URL as a
  parameter. The configuration as it stands is
  `CredentialSigner.ConfiguredVerifierUrl` (undefined), and the invariant is
  proved for every value.

## Model

| member | source | states |
|---|---|---|
| OrderedMap.FindFirst | routes/openid4vcIssuance.js:189-195 | the key found is the first in insertion order whose entry matches, as a `Map` iteration with an early `break` picks it; nothing is found exactly when no entry matches |
| OrderedMap.SweepCount | routes/openid4vp.js:20-36 | a sweep removes exactly the dead entries, and the map shrinks by their number |
| CredentialSigner.CredentialTypes | lib/credentialSigner.js:70-78 | the `type` array is always two long and starts with `VerifiableCredential`; the second entry is the PID type exactly for the PID configuration and `CustomCredential` for every other input |
| CredentialSigner.CredentialName | lib/credentialSigner.js:116-122 | the display name is `Unknown Credential` exactly for unknown types, and `Custom Credential` exactly for the custom type |
| CredentialSigner.CredentialDescription | lib/credentialSigner.js:127-133 | the generic description is returned exactly when the type is unknown |
| CredentialSigner.Pick | lib/credentialSigner.js:93-95 | spreading the chosen fields keeps exactly those present in the data, with their values unchanged |
| CredentialSigner.PidSubject | lib/credentialSigner.js:88-99 | a PID subject always has an id, `age_over_18`, `age_over_21` and `nationality`; `age_over_18` is always truthy; a missing value takes its default (true, false, `FR`); and given personal fields are copied unchanged |
| CredentialSigner.CustomSubject | lib/credentialSigner.js:101-110 | a custom subject always has an id and `customData`; missing data becomes `No data provided`; and the copied fields are kept unchanged |
| CredentialSigner.CredentialSubject | lib/credentialSigner.js:83-111 | the subject id is the request's truthy `subject` or else a fresh id, and the subject's shape is chosen by whether the type is the PID type |
| CredentialSigner.CredentialPayloadFor | lib/credentialSigner.js:19-55 | `iat` is the clock truncated to seconds; the credential expires one year after `iat`; the issuer is the configured issuer; the audience defaults to the wallet; and `sub` is the subject id |
| CredentialSigner.VerifyCredential | lib/credentialSigner.js:140-150 | verification yields the payload exactly when the signature holds and the token has not expired; otherwise it yields nothing |
| CredentialSigner.ExpiryChecksNeverFire | lib/credentialSigner.js:142-144 | against a verifier that, like `jwt.verify` with default options, rejects a token once `now >= exp`, the explicit `exp && exp < now` checks never reject a verified token, so an embedded credential is accepted exactly when it verifies |
| CredentialSigner.CheckCredentials | lib/credentialSigner.js:238-261 | the embedded credentials pass exactly when every one verifies and is unexpired; on success there is one summary per credential, in order |
| CredentialSigner.CheckPayload | lib/credentialSigner.js:217-267 | a verified presentation payload is valid exactly when its credentials pass; an invalid one reports exactly one error and no credentials |
| CredentialSigner.VerifyPresentation | lib/credentialSigner.js:202-280 | a presentation is valid exactly when its signature, expiry and every embedded credential pass; the decoded payload is reported exactly when the signature verifies |
| CredentialSigner.OneBadCredentialSpoilsPresentation | lib/credentialSigner.js:240-252 | one rejected embedded credential makes the whole presentation invalid and drops every summary |
| CredentialSigner.ClaimPresent | lib/credentialSigner.js:298-314 | a required claim is found exactly when some presented credential's subject has it |
| CredentialSigner.ValuePresent | lib/credentialSigner.js:325-341 | a constraint is met exactly when some single credential's subject holds the required value |
| CredentialSigner.MissingClaims | lib/credentialSigner.js:296-320 | the missing list holds exactly the required claims that no credential carries |
| CredentialSigner.InvalidClaims | lib/credentialSigner.js:323-350 | the invalid list holds exactly the constraints that no credential satisfies |
| CredentialSigner.ValidatePresentationClaims | lib/credentialSigner.js:288-353 | the claims are valid exactly when nothing is missing and nothing is invalid; empty requirements always validate |
| CredentialSigner.MissingClaimsOrder | lib/credentialSigner.js:298-319 | missing claims are reported in the order they were required, so splitting the requirement list splits the report the same way |
| CredentialSigner.InvalidClaimsOrder | lib/credentialSigner.js:325-349 | invalid constraints are reported in the order they were given |
| CredentialSigner.AsWrittenDefaultsAreUndefined | lib/credentialSigner.js:366-367 | with the unset configuration field, the default client id is undefined and the default redirect URI starts with `undefined` |
| CredentialSigner.GeneratePresentationRequest | lib/credentialSigner.js:360-397 | the request lives ten minutes; each truthy caller option, whatever JSON value it is, wins over its default (fresh state and nonce, the base URL as client, its `/callback` as redirect); and it asks for a `vp_token` |
| Issuance.ConfigurationId | routes/openid4vcIssuance.js:41-47 | the lookup table maps every known type to itself and leaves unknown types as they are, so the configuration id is always the requested type |
| Issuance.Initiate | routes/openid4vcIssuance.js:20-93 | a pending session lasting ten minutes is stored under the fresh id, no other session changes, and the offer URI names that session |
| Issuance.ReadOffer | routes/openid4vcIssuance.js:105-131 | an unknown id gives 404 and changes nothing; an expired session is deleted and gives 410; a live one gives its offer and changes nothing |
| Issuance.ReadSession | routes/openid4vcIssuance.js:142-170 | an unknown id gives 404; an expired session is deleted and gives 410; a live one reports its status and changes nothing |
| Issuance.CallbackData | routes/openid4vcIssuance.js:214-218 | the signed data is the session's credential data plus a `subject`; a subject given in the data wins over `user:<id>` |
| Issuance.Callback | routes/openid4vcIssuance.js:181-234 | with no matching session it answers 400 and changes nothing; 410 comes exactly when the first matching session in insertion order has expired, and that session is deleted; a redirect comes exactly when that session is live: it is completed with the credential signed from its data, and the redirect to its wallet carries that credential, the `jwt_vc_json` format and the state |
| Issuance.ReadCredential | routes/openid4vcIssuance.js:245-268 | the credential is returned exactly for a completed session and is the one stored; a pending or failed session gives 400; the store never changes |
| Issuance.EmptyInvariant | routes/openid4vcIssuance.js:7 | the empty session store satisfies the invariant |
| Issuance.InvariantMeans | routes/openid4vcIssuance.js:60-71 | under the invariant, no session stores a `state` and every completed session holds a credential |
| Issuance.InitiateKeepsInvariant | routes/openid4vcIssuance.js:60-71 | starting a session keeps the invariant |
| Issuance.CallbackKeepsInvariant | routes/openid4vcIssuance.js:181-225 | a callback keeps the invariant on every path, including expiry and completion |
| Issuance.HandleKeepsInvariant | routes/openid4vcIssuance.js:20-268 | every request to the router keeps the invariant |
| Issuance.CompletedIsFinal | routes/openid4vcIssuance.js:105-268 | no request other than re-using the session's own id turns a completed session back into something else |
| Issuance.CallbackOnlyCompletes | routes/openid4vcIssuance.js:189-225 | a callback changes at most one session, and only by completing it or deleting it |
| Issuance.OnlyCallbackCompletes | routes/openid4vcIssuance.js:222-225 | a pending session becomes completed only through a callback |
| Issuance.CallbackWithStateRejected | routes/openid4vcIssuance.js:189-202 | because no session stores a state, any callback that carries a `state` is refused with 400 and changes nothing |
| Issuance.CallbackWithoutStateTakesOldest | routes/openid4vcIssuance.js:189-225 | a callback without `state` completes the oldest session, if it is live |
| Issuance.LiveCallback | routes/openid4vcIssuance.js:204-225 | a live located session is completed with the signed credential, and the redirect to its wallet URL carries exactly that credential, the `jwt_vc_json` format and the query's state |
| Issuance.InitiateThenReadOffer | routes/openid4vcIssuance.js:20-131 | an offer read within ten minutes of starting the session returns the offer for the requested type |
| Issuance.InitiateThenStatusPending | routes/openid4vcIssuance.js:142-170 | a fresh session reads back as pending until it expires |
| Issuance.ExpiredReadThenNotFound | routes/openid4vcIssuance.js:142-161 | reading an expired session answers 410 once and 404 after that |
| Issuance.CredentialReadIsRepeatable | routes/openid4vcIssuance.js:245-268 | reading a completed session's credential succeeds and gives the same answer every time |
| Verification.FormatCredentialType | routes/openid4vpVerification.js:342-349 | the two known types get their display names; any other value is shown as it is; truthiness is preserved |
| Verification.QrRequestFor | routes/openid4vpVerification.js:41-72 | the request uses `direct_post` to the verifier's callback and has one input descriptor that filters on the requested type in JWT VC format |
| Verification.Initiate | routes/openid4vpVerification.js:24-103 | a pending ten-minute session is stored under the fresh id, holding the presentation request built for its type (direct_post to the callback, one descriptor filtering on that type); no other session changes; and the reply points at its request URI |
| Verification.ReadRequest | routes/openid4vpVerification.js:117-142 | an unknown id gives 404; an expired session is deleted and gives 410; a live one gives its stored request |
| Verification.ReadStatus | routes/openid4vpVerification.js:233-258 | an unknown id gives 404; an expired session is deleted and gives 410; a live one reports its status |
| Verification.ReadResult | routes/openid4vpVerification.js:272-325 | a result is given exactly for a completed session and carries its token; otherwise 404 or 400; the store never changes |
| Verification.VerifyToken | routes/openid4vpVerification.js:196 | only a string token whose signature and expiry both pass verifies |
| Verification.Settle | routes/openid4vpVerification.js:198-213 | a verified token completes the session and records it; a failed one marks the session failed and keeps the earlier token and result |
| Verification.Callback | routes/openid4vpVerification.js:156-225 | a token that is neither a string nor null makes the log line throw: 500 `presentation_processing_failed`, nothing changed; a missing token or an unknown `state` gives 400 and changes nothing; otherwise only the matched session is settled, and it is completed exactly when the token verifies |
| Verification.CallbackKeepsInvariant | routes/openid4vpVerification.js:198-213 | settling a session keeps the invariant that completed sessions hold a verified result |
| Verification.HandleKeepsInvariant | routes/openid4vpVerification.js:24-325 | every request to the router keeps the invariant |
| Verification.OnlyCallbackSettles | routes/openid4vpVerification.js:198-213 | a pending session leaves `pending` only through a callback |
| Verification.InitiateThenReadRequest | routes/openid4vpVerification.js:24-142 | within ten minutes the wallet is served exactly the request built for the session's type, with its state and nonce |
| Verification.InitiateThenCallback | routes/openid4vpVerification.js:24-219 | a callback with the fresh session's state settles exactly that session |
| Verification.CallbackSettlesFound | routes/openid4vpVerification.js:176-213 | a non-empty string token settles the first session whose state matches, completing it exactly when the token verifies |
| Verification.CompletedCanBeOverturned | routes/openid4vpVerification.js:193-213 | a later callback with a token that does not verify turns a completed session into a failed one |
| OpenId4Vp.Cleanup | routes/openid4vp.js:20-36 | cleanup keeps exactly the request objects and responses that have not expired, with their contents unchanged |
| OpenId4Vp.CleanupCount | routes/openid4vp.js:20-36 | cleanup keeps the store invariant; the request objects shrink by the number of expired request objects, the responses by the number of expired responses, and `cleaned` is the sum |
| OpenId4Vp.CleanupIdempotent | routes/openid4vp.js:20-36 | a second cleanup at the same time removes nothing more |
| OpenId4Vp.StatsCountOrder | routes/openid4vp.js:371-375 | the statistics count exactly the stored request objects and responses |
| OpenId4Vp.RequestObjectUriAsWrittenIsUndefined | routes/openid4vp.js:84 | with the unset configuration field, the advertised URI starts with `undefined` |
| OpenId4Vp.RequestObjectUri | routes/openid4vp.js:84 | the advertised URI is the base URL followed by `/request_object/` and the request id |
| OpenId4Vp.CreateRequestObject | routes/openid4vp.js:54-95 | under any configured verifier URL, the generated request is stored under its id with a ten-minute expiry; `state`, `nonce`, `client_id` and `redirect_uri` are kept as whatever truthy JSON values the body gives; `client_id` and `redirect_uri` otherwise default to that URL; nothing else changes; and the reply advertises the URI built from that URL |
| OpenId4Vp.CreateAsWrittenPointsAtUndefined | routes/openid4vp.js:54-95 | with the configuration as it stands, a request created without caller values advertises `undefined/request_object/<id>` and stores an undefined `client_id` and the redirect `undefined/callback` |
| OpenId4Vp.CreateOnBaseUrlMatchesGenerator | routes/openid4vp.js:65-84 | with the verifier URL set to the base URL, the advertised URI is the one this server serves, and the stored request is the corrected generator's |
| OpenId4Vp.ReadRequestObject | routes/openid4vp.js:102-134 | an unknown id gives 404; an expired object is deleted and gives 410; a live one is returned as stored |
| OpenId4Vp.CreateThenReadRequestObject | routes/openid4vp.js:54-134 | under any verifier URL, reading a new request object within ten minutes returns the generated request |
| OpenId4Vp.CheckToken | routes/openid4vp.js:167 | the token is accepted exactly when it is a string that passes presentation verification |
| OpenId4Vp.SubmitPresentation | routes/openid4vp.js:149-259 | the gates run in order, and each failure answers 400 with nothing stored: a missing token, a presentation that does not verify (with its errors), an unknown request id, a mismatched state, then failing claims (with the missing claims and unmet constraints); a presentation that passes them all is stored under the fresh response id; it is accepted with its credential count, issuer, audience and dates exactly when both dates render, and otherwise answers 500 after being stored |
| OpenId4Vp.CredentialsInfo | routes/openid4vp.js:294-299 | the credential list is rendered exactly when every summary has what it needs, with one entry per credential in order |
| OpenId4Vp.ReadPresentation | routes/openid4vp.js:266-308 | an unknown id gives 404; an expired response is deleted and gives 410; a live one is returned with its stored status, verdict and credential summaries exactly when every summary's dates render, and gives 500 otherwise; reads change nothing else |
| OpenId4Vp.SubmitThenReadPresentation | routes/openid4vp.js:149-300 | within an hour a stored response reads back as valid with its credentials |
| OpenId4Vp.VerifyAsWritten | routes/openid4vp.js:315-364 | the endpoint as written only gives a verdict when requirements were sent |
| OpenId4Vp.VerifyWithoutRequirementsFails | routes/openid4vp.js:337-355 | a verifiable presentation sent without requirements gets 500 |
| OpenId4Vp.Verify | routes/openid4vp.js:315-364 | a missing token gives 400 and a bad one is refused; a verdict is given exactly for a verifiable presentation; its validity is whether the claims validate |
| OpenId4Vp.VerifyAgreesWhereWrittenAnswers | routes/openid4vp.js:315-364 | the corrected endpoint agrees with the written one wherever the written one does not fail on missing requirements |
| OpenId4Vp.VerifyMatchesSubmit | routes/openid4vp.js:329-346 | `/verify` judges a presentation valid exactly when submitting it without a request id would store it |
| OpenId4Vp.CreateKeepsInvariant | routes/openid4vp.js:73-78 | storing a request object keeps the store invariant |
| OpenId4Vp.SubmitKeepsInvariant | routes/openid4vp.js:230-235 | storing a response keeps the store invariant |
| OpenId4Vp.HandleKeepsInvariant | routes/openid4vp.js:20-308 | under any verifier URL, every request, cleanup included, keeps the store invariant |
| Authorization.Authorize | app.js:102-146 | a missing parameter gives 400 and changes nothing; a complete request stores a ten-minute code and its state; the redirect happens exactly when the redirect URI parses, and it carries the code and state |
| Authorization.PreAuthorizedToken | app.js:154-199 | a token is issued exactly when the first session holding the pre-authorized code is still live; an unknown code is `invalid_grant`; every failure is 400 |
| Authorization.AuthorizationCodeToken | app.js:209-240 | a known code is always deleted; a token is issued exactly when that code was unexpired; every failure is `invalid_grant` |
| Authorization.Token | app.js:149-248 | each grant type is handled by its own branch, and any other grant type gives `unsupported_grant_type` |
| Authorization.AuthorizationCodeSingleUse | app.js:239-240 | an authorization code redeemed once is refused the second time |
| Authorization.ExpiredCodeIsForgotten | app.js:219-226 | an expired code is refused, deleted, and refused again |
| Authorization.PreAuthorizedCodeReusable | app.js:162-198 | a pre-authorized code is not consumed: a redemption leaves the store unchanged, and the code can be redeemed again at any earlier or later time at which its session has not expired |
| Authorization.TokenIgnoresUserPin | app.js:151 | the `user_pin` is read but never checked |
| Authorization.InitiateThenRedeem | app.js:162-198 | the pre-authorized code of a fresh issuance session can be redeemed within ten minutes |
| Authorization.AuthorizeThenRedeem | app.js:126-237 | a code issued by `/authorize` can be redeemed within its lifetime |
| CredentialEndpoints.CredentialRequestData | routes/openid4vc.js:32-54 | the signed data is the request body without the configuration id, otherwise unchanged |
| CredentialEndpoints.IssueCredential | routes/openid4vc.js:20-73 | a credential is issued exactly for a supported configuration id; otherwise 400 `unsupported_credential_type` |
| CredentialEndpoints.IssuedPayloadFollowsBody | routes/openid4vc.js:32-56 | the issued credential has the requested type and takes its subject from the body |
| CredentialEndpoints.BatchType | routes/openid4vc.js:96-99 | a batch item's type is its truthy `credential_type`, or else the custom type |
| CredentialEndpoints.SignAll | routes/openid4vc.js:95-101 | signing fails exactly when an item is null; otherwise there is one credential per item, in order |
| CredentialEndpoints.IssueBatch | routes/openid4vc.js:84-116 | a non-array gives 400; a null item gives 500; otherwise one credential per item is issued, in order |
| CredentialEndpoints.BatchTypes | routes/openid4vc.js:95-101 | each batch credential has the item's type and the item's data without `credential_type` |
| CredentialEndpoints.SingletonBatchMatchesCredential | routes/openid4vc.js:95-101 | a one-item batch issues the same credential as `/credential` with that item as the body |
| CredentialEndpoints.BatchOfOne | routes/openid4vc.js:95-108 | a one-item batch issues exactly one credential, signed from that item |
| CredentialEndpoints.SingleCredentialForItem | routes/openid4vc.js:32-56 | `/credential` on the rebuilt body is accepted and signs the item's data |
| CredentialEndpoints.DeferredCredential | routes/openid4vc.js:119-140 | a missing acceptance token gives 400; any given token yields a custom credential for the fixed deferred subject |
| CredentialEndpoints.DeferredIgnoresToken | routes/openid4vc.js:121-135 | the deferred credential does not depend on which acceptance token is presented |
| CredentialEndpoints.VerifyCredentialEndpoint | routes/openid4vc.js:171-193 | a missing credential gives 400; a string credential is accepted whenever the verifier returns a payload, and the payload is returned; anything else gives 401 |
| CredentialEndpoints.VerifyEndpointAgreesWithCredentialCheck | routes/openid4vc.js:182-193 | against a verifier that behaves like `jwt.verify`, `/verify_credential` accepts a credential exactly when the presentation pipeline would accept it as an embedded credential, even though it leaves out the explicit expiry check |

## Left out

- The JSON Web Token signature, key handling (lib/keyManager.js) and JOSE
  encoding are oracles. Which tokens verify is a parameter. The parameter is
  unconstrained, except in the two lemmas that assume
  `CredentialSigner.JwtLike`. That predicate states the expiry rule of
  `jwt.verify`.
- Not modelled: QR code generation, logging, the discovery documents
  (routes/wellKnown.js), `/notification`, `/userinfo`, the HTML pages and the
  browser scripts.
- Keys inherited from `Object.prototype` (for example `toString`) are not
  modelled. A lookup in a type table finds only the table's own keys.
- The display decoding of a stored presentation result in the
  verification router's `/result` is out. The reply carries the stored token
  and verdict.
- Batch items that are non-null primitives are out. Spreading a string
  would produce index keys. The model takes objects or `null`.
- Each request reads the clock once. The source reads `Date.now()` several
  times per request.
- JSON values are primitives (null, booleans, integers and strings). There
  are no nested objects and no floating point.
- The statistics endpoint's `uptime_seconds` and its static endpoint list
  are out.
- Query parameters that arrive as arrays are out.
- The `setInterval` timer is out. A cleanup happens when the engine receives
  a cleanup request.
- A `requiredClaims` value given as a string is out. The model takes a list.

## Findings

| source | as written | input that shows it | evidently intended | confidence | as-written member | corrected member |
|---|---|---|---|---|---|---|
| routes/openid4vp.js:337-355 | without `requirements`, `claimsValidation` stays `{ valid: true }`, and the response spreads its undefined `missingClaims`, which throws | a verifiable `vp_token` with no `requirements` field answers 500 `verification_failed` | no requirements means nothing to check, so the verdict is valid | not executed | OpenId4Vp.VerifyAsWritten | OpenId4Vp.Verify |
| lib/credentialSigner.js:366-367 | the defaults use `config.verifierUrl`, which the configuration never defines | `generatePresentationRequest({})` sets `client_id` to undefined and `redirect_uri` to `undefined/callback` | the verifier's base URL, `http://localhost:3000` | not executed | CredentialSigner.AsWrittenDefaultsAreUndefined | CredentialSigner.GeneratePresentationRequest |
| routes/openid4vp.js:84 | the advertised request object URI uses the same undefined `config.verifierUrl` | any `POST /request_object` replies with `undefined/request_object/<id>` | `http://localhost:3000/request_object/<id>` | not executed | OpenId4Vp.CreateAsWrittenPointsAtUndefined | OpenId4Vp.CreateOnBaseUrlMatchesGenerator |

=== FILE: authorization.dfy ===
/**
 * The authorization and token endpoints of app.js: `/authorize` stores the
 * request's parameters under its `state` and a fresh authorization code,
 * then redirects; `/token` redeems either a pre-authorized code, found by
 * a scan over the issuance sessions and never consumed, or an
 * authorization code, which is single-use and lives ten minutes.
 */
module Authorization {
  import opened Common
  import OrderedMap
  import Issuance

  const PreAuthorizedGrant: string := "urn:ietf:params:oauth:grant-type:pre-authorized_code"
  const AuthorizationCodeGrant: string := "authorization_code"

  /** Authorization codes live ten minutes (milliseconds). */
  const CodeLifetimeMs: int := 600000
  /** Access tokens are announced for one hour, `c_nonce` for ten minutes (seconds). */
  const AccessTokenLifetime: int := 3600
  const CNonceLifetime: int := 600

  /** The parameters `/authorize` keeps under the request's `state`. */
  datatype AuthState = AuthState(clientId: string, redirectUri: string, scope: string, nonce: Option<string>,
                                 codeChallenge: Option<string>, codeChallengeMethod: Option<string>, createdAt: int)

  /** What an authorization code remembers. */
  datatype AuthCode = AuthCode(clientId: string, scope: string, nonce: Option<string>, createdAt: int)

  datatype AuthStore = AuthStore(states: OrderedMap.OMap<AuthState>, codes: OrderedMap.OMap<AuthCode>)

  // ---------------------------------------------------------------------
  // /authorize
  // ---------------------------------------------------------------------

  /** The query of `GET /authorize`; `None` members are absent. */
  datatype AuthorizeQuery = AuthorizeQuery(clientId: Option<string>, redirectUri: Option<string>, scope: Option<string>,
                                           state: Option<string>, responseType: Option<string>, nonce: Option<string>,
                                           codeChallenge: Option<string>, codeChallengeMethod: Option<string>)

  /** The redirect: the client's URI with `code` and `state` appended. */
  datatype AuthRedirect = AuthRedirect(target: string, code: string, state: string)

  /** Whether the four required parameters are all present and non-empty. */
  predicate Complete(q: AuthorizeQuery)
  {
    Supplied(q.clientId) && Supplied(q.redirectUri) && Supplied(q.state) && Supplied(q.responseType)
  }

  /**
   * `GET /authorize` at `nowMs` with the drawn code `authCode`; `isUrl`
   * tells whether `new URL(redirect_uri)` parses. A redirect URI that does
   * not parse answers 500 after both records have been stored.
   */
  function Authorize(store: AuthStore, q: AuthorizeQuery, authCode: string, nowMs: int,
                     isUrl: string -> bool): (out: Step<AuthStore, AuthRedirect>)
    ensures !Complete(q) ==> out.store == store && out.reply == Fail(400, "invalid_request")
    ensures Complete(q) ==>
              && authCode in out.store.codes.entries
              && out.store.codes.entries[authCode]
                   == AuthCode(q.clientId.value, OrString(q.scope, "openid"), q.nonce, nowMs)
              && OrderedMap.SameExcept(store.codes.entries, out.store.codes.entries, authCode)
              && q.state.value in out.store.states.entries
              && out.store.states.entries[q.state.value].redirectUri == q.redirectUri.value
              && OrderedMap.SameExcept(store.states.entries, out.store.states.entries, q.state.value)
    ensures Complete(q) && !isUrl(q.redirectUri.value) ==> out.reply == Fail(500, "server_error")
    ensures out.reply.Redirect? <==> Complete(q) && isUrl(q.redirectUri.value)
    ensures out.reply.Redirect? ==>
              out.reply.body == AuthRedirect(q.redirectUri.value, authCode, q.state.value)
  {
    if !Complete(q) then Step(store, Fail(400, "invalid_request"))
    else
      var scope := OrString(q.scope, "openid");
      var st := AuthState(q.clientId.value, q.redirectUri.value, scope, q.nonce, q.codeChallenge,
                          q.codeChallengeMethod, nowMs);
      var code := AuthCode(q.clientId.value, scope, q.nonce, nowMs);
      var after := AuthStore(OrderedMap.Set(store.states, q.state.value, st),
                             OrderedMap.Set(store.codes, authCode, code));
      if !isUrl(q.redirectUri.value) then Step(after, Fail(500, "server_error"))
      else Step(after, Redirect(AuthRedirect(q.redirectUri.value, authCode, q.state.value)))
  }

  // ---------------------------------------------------------------------
  // /token
  // ---------------------------------------------------------------------

  /** The body of `POST /token`; `None` members are absent. */
  datatype TokenBody = TokenBody(grantType: Option<Value>, code: Option<Value>, preAuthorizedCode: Option<Value>,
                                 redirectUri: Option<Value>, clientId: Option<Value>, codeVerifier: Option<Value>,
                                 userPin: Option<Value>)

  /** The random values a token response draws. */
  datatype TokenIds = TokenIds(accessToken: string, cNonce: string)

  /** A token response; members that a grant does not send are `None`. */
  datatype TokenAnswer = TokenAnswer(accessToken: string, tokenType: string, expiresIn: int,
                                     cNonce: Option<string>, cNonceExpiresIn: Option<int>,
                                     scope: Option<string>, idToken: Option<string>)

  /** Whether an issuance session carries the posted pre-authorized code (`===`). */
  function CodeMatches(code: Value): Issuance.EmissionSession -> bool
  {
    (s: Issuance.EmissionSession) => code == Str(s.preAuthorizedCode)
  }

  /** `authorizationCodes.get(code)`: only a string can match a stored code. */
  function LookupCode(store: AuthStore, code: Option<Value>): Option<AuthCode>
  {
    if code.Some? && code.value.Str? && code.value.s in store.codes.entries
    then Some(store.codes.entries[code.value.s]) else None
  }

  /** Whether an authorization code created at `createdAt` is too old at `nowMs`. */
  predicate CodeExpired(c: AuthCode, nowMs: int)
  {
    nowMs - c.createdAt > CodeLifetimeMs
  }

  /** The pre-authorized grant: the session map is only read. */
  function PreAuthorizedToken(sessions: Issuance.Sessions, body: TokenBody, ids: TokenIds, nowMs: int): (r: Reply<TokenAnswer>)
    ensures !Given(body.preAuthorizedCode) ==> r == Fail(400, "invalid_request")
    ensures Given(body.preAuthorizedCode)
            && (forall k :: k in sessions.entries ==> !CodeMatches(body.preAuthorizedCode.value)(sessions.entries[k]))
            ==> r == Fail(400, "invalid_grant")
    ensures r.Ok? <==>
              && Given(body.preAuthorizedCode)
              && var found := OrderedMap.Find(sessions, CodeMatches(body.preAuthorizedCode.value));
              && found.Some? && !Issuance.Expired(sessions.entries[found.value], nowMs)
    ensures r.Ok? ==> r.body == TokenAnswer(ids.accessToken, "Bearer", AccessTokenLifetime, Some(ids.cNonce),
                                            Some(CNonceLifetime), None, None)
    ensures r.Fail? ==> r.status == 400
  {
    if !Given(body.preAuthorizedCode) then Fail(400, "invalid_request")
    else
      match OrderedMap.Find(sessions, CodeMatches(body.preAuthorizedCode.value))
      case None => Fail(400, "invalid_grant")
      case Some(id) =>
        if Issuance.Expired(sessions.entries[id], nowMs) then Fail(400, "invalid_grant")
        else Ok(TokenAnswer(ids.accessToken, "Bearer", AccessTokenLifetime, Some(ids.cNonce), Some(CNonceLifetime),
                            None, None))
  }

  /** The authorization-code grant: the code is deleted on redemption and on expiry. */
  function AuthorizationCodeToken(store: AuthStore, body: TokenBody, ids: TokenIds, nowMs: int): (out: Step<AuthStore, TokenAnswer>)
    ensures out.store.states == store.states
    ensures LookupCode(store, body.code).None? ==> out.store == store && out.reply == Fail(400, "invalid_grant")
    ensures LookupCode(store, body.code).Some? ==>
              out.store.codes.entries == store.codes.entries - {body.code.value.s}
    ensures out.reply.Ok? <==> LookupCode(store, body.code).Some? && !CodeExpired(LookupCode(store, body.code).value, nowMs)
    ensures out.reply.Ok? ==>
              && out.reply.body.scope == Some(LookupCode(store, body.code).value.scope)
              && out.reply.body.expiresIn == AccessTokenLifetime
              && (out.reply.body.idToken.Some? <==> Supplied(LookupCode(store, body.code).value.nonce))
              && (out.reply.body.idToken.Some? ==> out.reply.body.idToken.value == out.reply.body.accessToken)
    ensures out.reply.Fail? ==> out.reply == Fail(400, "invalid_grant")
  {
    match LookupCode(store, body.code)
    case None => Step(store, Fail(400, "invalid_grant"))
    case Some(c) =>
      var after := store.(codes := OrderedMap.Delete(store.codes, body.code.value.s));
      if CodeExpired(c, nowMs) then Step(after, Fail(400, "invalid_grant"))
      else
        var idToken := if Supplied(c.nonce) then Some(ids.accessToken) else None;
        Step(after, Ok(TokenAnswer(ids.accessToken, "Bearer", AccessTokenLifetime, None, None, Some(c.scope), idToken)))
  }

  /** `POST /token` at `nowMs`, reading the issuance sessions for the pre-authorized grant. */
  function Token(store: AuthStore, sessions: Issuance.Sessions, body: TokenBody, ids: TokenIds, nowMs: int): (out: Step<AuthStore, TokenAnswer>)
    ensures body.grantType == Some(Str(PreAuthorizedGrant)) ==>
              out.store == store && out.reply == PreAuthorizedToken(sessions, body, ids, nowMs)
    ensures body.grantType != Some(Str(PreAuthorizedGrant)) && body.grantType != Some(Str(AuthorizationCodeGrant)) ==>
              out.store == store && out.reply == Fail(400, "unsupported_grant_type")
    ensures body.grantType == Some(Str(AuthorizationCodeGrant)) ==> out == AuthorizationCodeToken(store, body, ids, nowMs)
  {
    if body.grantType == Some(Str(PreAuthorizedGrant)) then Step(store, PreAuthorizedToken(sessions, body, ids, nowMs))
    else if body.grantType != Some(Str(AuthorizationCodeGrant)) then Step(store, Fail(400, "unsupported_grant_type"))
    else AuthorizationCodeToken(store, body, ids, nowMs)
  }

  // ---------------------------------------------------------------------
  // Properties across requests
  // ---------------------------------------------------------------------

  /** An authorization code is single-use: a second redemption is refused. */
  lemma AuthorizationCodeSingleUse(store: AuthStore, sessions: Issuance.Sessions, body: TokenBody,
                                   ids1: TokenIds, ids2: TokenIds, t1: int, t2: int)
    requires body.grantType == Some(Str(AuthorizationCodeGrant))
    requires Token(store, sessions, body, ids1, t1).reply.Ok?
    ensures Token(Token(store, sessions, body, ids1, t1).store, sessions, body, ids2, t2).reply == Fail(400, "invalid_grant")
  {
  }

  /** An expired authorization code is refused and forgotten, so retrying answers the same. */
  lemma ExpiredCodeIsForgotten(store: AuthStore, sessions: Issuance.Sessions, body: TokenBody,
                               ids1: TokenIds, ids2: TokenIds, t1: int, t2: int)
    requires body.grantType == Some(Str(AuthorizationCodeGrant))
    requires LookupCode(store, body.code).Some? && CodeExpired(LookupCode(store, body.code).value, t1)
    ensures Token(store, sessions, body, ids1, t1).reply == Fail(400, "invalid_grant")
    ensures LookupCode(Token(store, sessions, body, ids1, t1).store, body.code).None?
    ensures Token(Token(store, sessions, body, ids1, t1).store, sessions, body, ids2, t2).reply == Fail(400, "invalid_grant")
  {
  }

  /**
   * A pre-authorized code is never consumed: redeeming it changes nothing,
   * so it can be redeemed again at any time, earlier or later, at which the
   * session holding it has not expired.
   */
  lemma PreAuthorizedCodeReusable(store: AuthStore, sessions: Issuance.Sessions, body: TokenBody,
                                  ids1: TokenIds, ids2: TokenIds, t1: int, t2: int)
    requires body.grantType == Some(Str(PreAuthorizedGrant))
    requires Token(store, sessions, body, ids1, t1).reply.Ok?
    requires !Issuance.Expired(sessions.entries[OrderedMap.Find(sessions, CodeMatches(body.preAuthorizedCode.value)).value], t2)
    ensures Token(store, sessions, body, ids1, t1).store == store
    ensures Token(Token(store, sessions, body, ids1, t1).store, sessions, body, ids2, t2).reply.Ok?
  {
  }

  /** The user PIN issued with an offer is never checked: the token response does not depend on it. */
  lemma TokenIgnoresUserPin(store: AuthStore, sessions: Issuance.Sessions, body: TokenBody, pin: Option<Value>,
                            ids: TokenIds, nowMs: int)
    ensures Token(store, sessions, body.(userPin := pin), ids, nowMs) == Token(store, sessions, body, ids, nowMs)
  {
  }

  /**
   * The pre-authorized code of a freshly initiated issuance session is
   * redeemable within ten minutes, when no older session shares the code.
   */
  lemma InitiateThenRedeem(store: AuthStore, sessions: Issuance.Sessions, req: Issuance.InitiateRequest,
                           iids: Issuance.InitiateIds, t0: int, tids: TokenIds, t1: int)
    requires OrderedMap.Valid(sessions)
    requires forall k :: k in sessions.entries ==> sessions.entries[k].preAuthorizedCode != iids.preAuthorizedCode
    requires iids.preAuthorizedCode != ""
    requires t1 <= t0 + Issuance.SessionLifetimeMs
    ensures var after := Issuance.Initiate(sessions, req, iids, t0).store;
            var body := TokenBody(Some(Str(PreAuthorizedGrant)), None, Some(Str(iids.preAuthorizedCode)),
                                  None, None, None, None);
            Token(store, after, body, tids, t1).reply.Ok?
  {
    var after := Issuance.Initiate(sessions, req, iids, t0).store;
    OrderedMap.SetKeepsValid(sessions, iids.sessionId, after.entries[iids.sessionId]);
    var p := CodeMatches(Str(iids.preAuthorizedCode));
    var found := OrderedMap.Find(after, p);
    OrderedMap.FindAllMiss(after, p);
    assert p(after.entries[iids.sessionId]);
    assert found.Some?;
    assert found.value == iids.sessionId;
  }

  /** An authorization code just issued by `/authorize` redeems once, within ten minutes. */
  lemma AuthorizeThenRedeem(store: AuthStore, sessions: Issuance.Sessions, q: AuthorizeQuery, authCode: string,
                            t0: int, isUrl: string -> bool, ids: TokenIds, t1: int)
    requires Complete(q)
    requires t1 - t0 <= CodeLifetimeMs
    ensures var after := Authorize(store, q, authCode, t0, isUrl).store;
            var body := TokenBody(Some(Str(AuthorizationCodeGrant)), Some(Str(authCode)), None, None, None, None, None);
            var out := Token(after, sessions, body, ids, t1);
            && out.reply.Ok?
            && out.reply.body.scope == Some(OrString(q.scope, "openid"))
            && (out.reply.body.idToken.Some? <==> Supplied(q.nonce))
  {
  }
}

=== FILE: common.dfy ===
/**
 * Shared vocabulary of the issuer/verifier model: optional and fallible
 * values, the JSON primitives that cross the HTTP boundary together with
 * JavaScript's notion of truthiness, HTTP replies, and the configured URLs.
 */
module Common {

  /** A value that may be absent; `None` stands for JavaScript's `undefined`. */
  datatype Option<+T> = None | Some(value: T)

  /** The outcome of a step that either produces a value or stops with an error. */
  datatype Result<+T, +E> = Success(value: T) | Failure(error: E)

  /**
   * A JSON primitive as found in request bodies, query strings and token
   * payloads. Numbers are integers: no floating point, NaN or -0.
   */
  datatype Value = Null | Bool(b: bool) | Num(n: int) | Str(s: string)

  /** A JSON object whose members are primitives. */
  type Obj = map<string, Value>

  /** JavaScript truthiness of a primitive. */
  predicate Truthy(v: Value)
  {
    match v
    case Null => false
    case Bool(b) => b
    case Num(n) => n != 0
    case Str(s) => s != ""
  }

  /** Whether a possibly undefined value is truthy (what `if (x)` tests). */
  predicate Given(x: Option<Value>)
  {
    x.Some? && Truthy(x.value)
  }

  /** JavaScript's `x || fallback` for a possibly undefined `x`. */
  function Or(x: Option<Value>, fallback: Value): Value
  {
    if Given(x) then x.value else fallback
  }

  /** Member `key` of an object, `None` when the object has no such member. */
  function Lookup(o: Obj, key: string): Option<Value>
  {
    if key in o then Some(o[key]) else None
  }

  /** Whether a string parameter was supplied and is non-empty (truthy). */
  predicate Supplied(s: Option<string>)
  {
    s.Some? && s.value != ""
  }

  /** JavaScript's `s || fallback` for a possibly undefined string. */
  function OrString(s: Option<string>, fallback: string): string
  {
    if Supplied(s) then s.value else fallback
  }

  /** What a template literal prints for a possibly undefined string. */
  function Interpolate(s: Option<string>): string
  {
    if s.Some? then s.value else "undefined"
  }

  /** Life-cycle of an issuance or verification session. */
  datatype Status = Pending | Completed | Failed

  /**
   * An HTTP answer: a 200 JSON body, a 302 redirect described by its body,
   * an error status with the machine-readable `error` code, or an error
   * status whose body carries more than a code (lists of failed checks).
   */
  datatype Reply<+T> = Ok(body: T) | Redirect(body: T) | Fail(status: int, error: string) | Refuse(status: int, body: T)
  {
    function HttpStatus(): int
    {
      match this
      case Ok(_) => 200
      case Redirect(_) => 302
      case Fail(s, _) => s
      case Refuse(s, _) => s
    }
  }

  /** A handler's effect: the store after the request, and the answer. */
  datatype Step<+S, +T> = Step(store: S, reply: Reply<T>)

  /** Configured URLs, at their default values (the environment overrides them). */
  const BaseUrl: string := "http://localhost:3000"
  const IssuerUrl: string := "http://localhost:3000"
  const WalletUrl: string := "http://localhost:4000"

  /** Format tag of every issued credential. */
  const JwtVcJson: string := "jwt_vc_json"

  /** Largest magnitude, in milliseconds, of a valid JavaScript `Date`. */
  const MaxDateMs: int := 8640000000000000

  /**
   * `new Date(seconds * 1000).toISOString()`: the instant in milliseconds,
   * or `None` when the seconds are undefined or out of `Date`'s range, where
   * `toISOString` throws.
   */
  function IsoInstant(seconds: Option<int>): Option<int>
  {
    if seconds.Some? && -MaxDateMs <= seconds.value * 1000 <= MaxDateMs
    then Some(seconds.value * 1000)
    else None
  }
}

=== FILE: credential_endpoints.dfy ===
/**
 * The credential endpoints of routes/openid4vc.js: `/credential` with its
 * two-type whitelist, `/batch_credential` mapping each request to a signed
 * credential with a default type, `/deferred_credential` behind a required
 * acceptance token, and `/verify_credential` with its 200/401 split.
 */
module CredentialEndpoints {
  import opened Common
  import CredentialSigner

  /** How long a `c_nonce` of these endpoints is announced to live (seconds). */
  const CNonceLifetime: int := 300

  /** The body member that names the credential type of `/credential`. */
  const ConfigurationIdKey: string := "credential_configuration_id"

  /** The body member that names the credential type of one batch request. */
  const TypeKey: string := "credential_type"

  /** The subject of every deferred credential. */
  const DeferredSubject: string := "user123"

  datatype CredentialIssued = CredentialIssued(credential: string, format: string, cNonce: string, cNonceExpiresIn: int)

  /** The two types `/credential` accepts. */
  predicate Supported(t: Option<Value>)
  {
    t == Some(Str(CredentialSigner.CustomType)) || t == Some(Str(CredentialSigner.PidType))
  }

  /**
   * `{ subject, ...credentialData }` after taking `credential_configuration_id`
   * out of the body: every other member, `subject` included.
   */
  function CredentialRequestData(body: Obj): (d: Obj)
    ensures d.Keys == body.Keys - {ConfigurationIdKey}
    ensures forall k :: k in d ==> d[k] == body[k]
  {
    body - {ConfigurationIdKey}
  }

  /** `POST /credential` at `nowMs`; `cNonce` is the random nonce drawn for the answer. */
  function IssueCredential(body: Obj, sign: CredentialSigner.Signer, nowMs: int, ids: CredentialSigner.SignFresh,
                           cNonce: string): (r: Reply<CredentialIssued>)
    ensures r.Ok? <==> Supported(Lookup(body, ConfigurationIdKey))
    ensures !r.Ok? ==> r == Fail(400, "unsupported_credential_type")
    ensures r.Ok? ==>
              && r.body.format == JwtVcJson
              && r.body.cNonce == cNonce
              && r.body.cNonceExpiresIn == CNonceLifetime
              && r.body.credential == sign(CredentialSigner.CredentialPayloadFor(
                   CredentialRequestData(body), body[ConfigurationIdKey], nowMs, ids))
  {
    var t := Lookup(body, ConfigurationIdKey);
    if !Supported(t) then Fail(400, "unsupported_credential_type")
    else Ok(CredentialIssued(CredentialSigner.SignCredential(sign, CredentialRequestData(body), t.value, nowMs, ids),
                             JwtVcJson, cNonce, CNonceLifetime))
  }

  /**
   * What `/credential` signs: the configuration id becomes the credential
   * type and the body's `subject` becomes both `sub` and the subject's `id`.
   */
  lemma IssuedPayloadFollowsBody(body: Obj, nowMs: int, ids: CredentialSigner.SignFresh)
    requires Supported(Lookup(body, ConfigurationIdKey))
    ensures var p := CredentialSigner.CredentialPayloadFor(CredentialRequestData(body), body[ConfigurationIdKey], nowMs, ids);
            && p.credentialType == body[ConfigurationIdKey]
            && CredentialSigner.IsKnownType(p.credentialType)
            && (Given(Lookup(body, "subject")) ==> p.sub == body["subject"] && p.vc.credentialSubject["id"] == body["subject"])
  {
    RequestDataKeepsSubject(body);
  }

  /** Dropping the configuration id leaves the `subject` member as it was. */
  lemma RequestDataKeepsSubject(body: Obj)
    ensures Lookup(CredentialRequestData(body), "subject") == Lookup(body, "subject")
  {
    assert "subject" != ConfigurationIdKey;
  }

  // ---------------------------------------------------------------------
  // Batch
  // ---------------------------------------------------------------------

  /** One element of the `credentials` array: an object, or `null` (which cannot be destructured). */
  datatype BatchItem = NullItem | ObjectItem(members: Obj)

  /** The `credentials` member of a batch body: an array, or anything else. */
  datatype BatchField = NotArray | Items(items: seq<BatchItem>)

  datatype BatchIssued = BatchIssued(credentials: seq<string>, format: string, cNonce: string, cNonceExpiresIn: int)

  /** The type one batch request asks for, `custom_credential` when it gives none. */
  function BatchType(item: Obj): (t: Value)
    ensures Truthy(t)
    ensures Given(Lookup(item, TypeKey)) ==> t == item[TypeKey]
    ensures !Given(Lookup(item, TypeKey)) ==> t == Str(CredentialSigner.CustomType)
  {
    Or(Lookup(item, TypeKey), Str(CredentialSigner.CustomType))
  }

  /** The credential one batch request yields; `ids` are the identifiers it draws. */
  function SignItem(item: Obj, sign: CredentialSigner.Signer, nowMs: int, ids: CredentialSigner.SignFresh): string
  {
    CredentialSigner.SignCredential(sign, item - {TypeKey}, BatchType(item), nowMs, ids)
  }

  /** Whether some element of the array is `null`. */
  predicate HasNull(items: seq<BatchItem>)
  {
    exists i :: 0 <= i < |items| && items[i].NullItem?
  }

  /**
   * `credentialRequests.map(signOne)` over the elements from position `from`
   * on: one credential per element, in order, or `None` when an element is
   * `null` and the map throws.
   */
  function SignAll(items: seq<BatchItem>, signOne: (Obj, int) -> string, from: int): (r: Option<seq<string>>)
    ensures r.None? <==> HasNull(items)
    ensures r.Some? ==> |r.value| == |items|
    ensures r.Some? ==> forall i :: 0 <= i < |items| ==> r.value[i] == signOne(items[i].members, from + i)
  {
    if items == [] then Some([])
    else if items[0].NullItem? then
      assert HasNull(items) by { assert items[0].NullItem?; }
      None
    else
      var rest := SignAll(items[1..], signOne, from + 1);
      assert HasNull(items) <==> HasNull(items[1..]) by {
        if HasNull(items) {
          var i :| 0 <= i < |items| && items[i].NullItem?;
          assert i > 0 && items[1..][i - 1].NullItem?;
        }
        if HasNull(items[1..]) {
          var j :| 0 <= j < |items[1..]| && items[1..][j].NullItem?;
          assert items[j + 1].NullItem?;
        }
      }
      if rest.None? then None
      else
        var r := [signOne(items[0].members, from)] + rest.value;
        assert forall i :: 1 <= i < |items| ==> r[i] == signOne(items[i].members, from + i) by {
          forall i | 1 <= i < |items| ensures r[i] == signOne(items[i].members, from + i) {
            assert r[i] == rest.value[i - 1] && items[1..][i - 1] == items[i];
            assert (from + 1) + (i - 1) == from + i;
          }
        }
        Some(r)
  }

  /**
   * `POST /batch_credential` at `nowMs`; `ids(i)` are the identifiers drawn
   * for the `i`-th credential. A `null` element throws inside the map and
   * the handler answers 500.
   */
  function IssueBatch(credentials: BatchField, sign: CredentialSigner.Signer, nowMs: int,
                      ids: int -> CredentialSigner.SignFresh, cNonce: string): (r: Reply<BatchIssued>)
    ensures credentials.NotArray? ==> r == Fail(400, "invalid_request")
    ensures credentials.Items? && HasNull(credentials.items) ==> r == Fail(500, "batch_issuance_failed")
    ensures r.Ok? <==> credentials.Items? && !HasNull(credentials.items)
    ensures r.Ok? ==>
              && |r.body.credentials| == |credentials.items|
              && (forall i :: 0 <= i < |credentials.items| ==>
                    r.body.credentials[i] == SignItem(credentials.items[i].members, sign, nowMs, ids(i)))
              && r.body.format == JwtVcJson && r.body.cNonceExpiresIn == CNonceLifetime
  {
    match credentials
    case NotArray => Fail(400, "invalid_request")
    case Items(items) =>
      match SignAll(items, (o: Obj, i: int) => SignItem(o, sign, nowMs, ids(i)), 0)
      case None => Fail(500, "batch_issuance_failed")
      case Some(signed) => Ok(BatchIssued(signed, JwtVcJson, cNonce, CNonceLifetime))
  }

  /**
   * Unlike `/credential`, the batch endpoint has no whitelist: a request
   * naming any truthy type is signed with that type, and one naming none
   * gets `custom_credential`.
   */
  lemma BatchTypes(item: Obj, nowMs: int, ids: CredentialSigner.SignFresh)
    ensures var p := CredentialSigner.CredentialPayloadFor(item - {TypeKey}, BatchType(item), nowMs, ids);
            && (Given(Lookup(item, TypeKey)) ==> p.credentialType == item[TypeKey])
            && (!Given(Lookup(item, TypeKey)) ==> p.credentialType == Str(CredentialSigner.CustomType)
                                                  && p.vc.types == ["VerifiableCredential", "CustomCredential"])
  {
  }

  /** A batch of one request signs what `/credential` signs for the same data and type. */
  lemma SingletonBatchMatchesCredential(item: Obj, sign: CredentialSigner.Signer, nowMs: int,
                                        ids: int -> CredentialSigner.SignFresh, cNonce: string)
    requires Supported(Lookup(item, TypeKey))
    requires ConfigurationIdKey !in item
    ensures var batch := IssueBatch(Items([ObjectItem(item)]), sign, nowMs, ids, cNonce);
            var body := (item - {TypeKey})[ConfigurationIdKey := item[TypeKey]];
            var single := IssueCredential(body, sign, nowMs, ids(0), cNonce);
            batch.Ok? && single.Ok? && batch.body.credentials == [single.body.credential]
  {
    SingleCredentialForItem(item, sign, nowMs, ids(0), cNonce);
    BatchOfOne(item, sign, nowMs, ids, cNonce);
  }

  /** A batch of one object signs that object alone. */
  lemma BatchOfOne(item: Obj, sign: CredentialSigner.Signer, nowMs: int,
                   ids: int -> CredentialSigner.SignFresh, cNonce: string)
    ensures var b := IssueBatch(Items([ObjectItem(item)]), sign, nowMs, ids, cNonce);
            b.Ok? && |b.body.credentials| == 1 && b.body.credentials[0] == SignItem(item, sign, nowMs, ids(0))
  {
    assert !HasNull([ObjectItem(item)]);
  }

  /** `/credential` on the body equivalent to one batch element signs what the batch signs for it. */
  lemma SingleCredentialForItem(item: Obj, sign: CredentialSigner.Signer, nowMs: int,
                                ids: CredentialSigner.SignFresh, cNonce: string)
    requires Supported(Lookup(item, TypeKey))
    requires ConfigurationIdKey !in item
    ensures var body := (item - {TypeKey})[ConfigurationIdKey := item[TypeKey]];
            IssueCredential(body, sign, nowMs, ids, cNonce)
              == Ok(CredentialIssued(SignItem(item, sign, nowMs, ids), JwtVcJson, cNonce, CNonceLifetime))
  {
    RebuiltBody(item);
  }

  /** The `/credential` body equivalent to one batch element. */
  lemma RebuiltBody(item: Obj)
    requires Supported(Lookup(item, TypeKey))
    requires ConfigurationIdKey !in item
    ensures var body := (item - {TypeKey})[ConfigurationIdKey := item[TypeKey]];
            && CredentialRequestData(body) == item - {TypeKey}
            && Lookup(body, ConfigurationIdKey) == Some(item[TypeKey])
            && BatchType(item) == body[ConfigurationIdKey]
  {
  }

  // ---------------------------------------------------------------------
  // Deferred and verification
  // ---------------------------------------------------------------------

  datatype DeferredIssued = DeferredIssued(credential: string, format: string)

  /** `POST /deferred_credential`: the token is required but never looked at. */
  function DeferredCredential(acceptanceToken: Option<Value>, sign: CredentialSigner.Signer, nowMs: int,
                              ids: CredentialSigner.SignFresh): (r: Reply<DeferredIssued>)
    ensures !Given(acceptanceToken) ==> r == Fail(400, "invalid_request")
    ensures Given(acceptanceToken) ==> r.Ok? && r.body.format == JwtVcJson
    ensures r.Ok? ==>
              r.body.credential == sign(CredentialSigner.CredentialPayloadFor(
                map["subject" := Str(DeferredSubject)], Str(CredentialSigner.CustomType), nowMs, ids))
  {
    if !Given(acceptanceToken) then Fail(400, "invalid_request")
    else Ok(DeferredIssued(CredentialSigner.SignCredential(sign, map["subject" := Str(DeferredSubject)],
                                                           Str(CredentialSigner.CustomType), nowMs, ids), JwtVcJson))
  }

  /** Every accepted token yields the same credential, a custom one for subject `user123`. */
  lemma DeferredIgnoresToken(t1: Value, t2: Value, sign: CredentialSigner.Signer, nowMs: int,
                             ids: CredentialSigner.SignFresh)
    requires Truthy(t1) && Truthy(t2)
    ensures DeferredCredential(Some(t1), sign, nowMs, ids) == DeferredCredential(Some(t2), sign, nowMs, ids)
    ensures var p := CredentialSigner.CredentialPayloadFor(map["subject" := Str(DeferredSubject)],
                                                           Str(CredentialSigner.CustomType), nowMs, ids);
            p.sub == Str(DeferredSubject) && p.credentialType == Str(CredentialSigner.CustomType)
  {
    var data: Obj := map["subject" := Str(DeferredSubject)];
    assert Given(Lookup(data, "subject")) && data["subject"] == Str(DeferredSubject);
  }

  /** The answers of `/verify_credential` beyond a bare error code. */
  datatype CredentialVerdict = CredentialValid(credential: CredentialSigner.JwtPayload) | CredentialInvalid(error: string)

  /**
   * `POST /verify_credential` at `nowMs`: 200 with the payload when the
   * credential verifies, 401 otherwise; `jwt.verify` rejects a non-string.
   */
  function VerifyCredentialEndpoint(credential: Option<Value>, verify: CredentialSigner.JwtVerifier, nowMs: int): (r: Reply<CredentialVerdict>)
    ensures !Given(credential) ==> r == Fail(400, "invalid_request")
    ensures Given(credential) ==> r.Ok? || r == Refuse(401, CredentialInvalid("credential_verification_failed"))
    ensures r.Ok? <==> Given(credential) && credential.value.Str?
                       && verify(credential.value.s, CredentialSigner.Seconds(nowMs)).Verified?
    ensures r.Ok? ==> r.body == CredentialValid(verify(credential.value.s, CredentialSigner.Seconds(nowMs)).payload)
  {
    if !Given(credential) then Fail(400, "invalid_request")
    else
      var verified := if credential.value.Str?
                      then CredentialSigner.VerifyCredential(verify, credential.value.s, CredentialSigner.Seconds(nowMs))
                      else None;
      if verified.Some? then Ok(CredentialValid(verified.value))
      else Refuse(401, CredentialInvalid("credential_verification_failed"))
  }

  /**
   * `/verify_credential` leaves out the presentation pipeline's explicit
   * expiry check; against a verifier that behaves like `jwt.verify` that
   * check never fires, so the endpoint accepts exactly the credentials a
   * presentation would accept.
   */
  lemma VerifyEndpointAgreesWithCredentialCheck(token: string, verify: CredentialSigner.JwtVerifier, nowMs: int)
    requires CredentialSigner.JwtLike(verify)
    ensures VerifyCredentialEndpoint(Some(Str(token)), verify, nowMs).Ok?
            <==> token != "" && CredentialSigner.CredentialAccepted(verify(token, CredentialSigner.Seconds(nowMs)), CredentialSigner.Seconds(nowMs))
  {
    CredentialSigner.ExpiryChecksNeverFire(verify, token, CredentialSigner.Seconds(nowMs));
  }
}

=== FILE: credential_signer.dfy ===
/**
 * The credential signer of lib/credentialSigner.js: the per-type tables,
 * the shape of a signed credential's payload, the fail-fast verification of
 * a presentation, the existential claim check across embedded credentials,
 * and the defaults of a presentation request.
 *
 * Signing, signature checking and base64url decoding are oracles passed in
 * as parameters; the clock and fresh identifiers are parameters too.
 */
module CredentialSigner {
  import opened Common

  const PidType: string := "eu.europa.ec.eudi.pid.1"
  const CustomType: string := "custom_credential"
  const PresentationType: string := "VerifiablePresentation"

  /** One year, in seconds. */
  const CredentialValiditySeconds: int := 365 * 24 * 60 * 60

  /** Ten minutes, in seconds. */
  const RequestLifetimeSeconds: int := 600

  /** Whether a credential type selects the EIDAS person-identification schema. */
  predicate IsPid(t: Value)
  {
    t == Str(PidType)
  }

  /** Whether a credential type is one of the two the issuer knows by name. */
  predicate IsKnownType(t: Value)
  {
    t == Str(PidType) || t == Str(CustomType)
  }

  // ---------------------------------------------------------------------
  // Per-type tables
  // ---------------------------------------------------------------------

  /** The `vc.type` array: every type that is not PID gets the custom schema. */
  function CredentialTypes(t: Value): (r: seq<string>)
    ensures |r| == 2 && r[0] == "VerifiableCredential"
    ensures r[1] == "PersonIdentificationData" <==> IsPid(t)
    ensures r[1] == "CustomCredential" <==> !IsPid(t)
  {
    if IsPid(t) then ["VerifiableCredential", "PersonIdentificationData"]
    else ["VerifiableCredential", "CustomCredential"]
  }

  /** The display name; unknown types are named "Unknown Credential". */
  function CredentialName(t: Value): (r: string)
    ensures r == "Unknown Credential" <==> !IsKnownType(t)
    ensures r == "Custom Credential" <==> t == Str(CustomType)
  {
    if IsPid(t) then "Person Identification Data (PID)"
    else if t == Str(CustomType) then "Custom Credential"
    else "Unknown Credential"
  }

  /** The description; unknown types get the generic "Verifiable Credential". */
  function CredentialDescription(t: Value): (r: string)
    ensures r == "Verifiable Credential" <==> !IsKnownType(t)
  {
    if IsPid(t) then "EIDAS Person Identification Data issued according to the European Digital Identity Regulation"
    else if t == Str(CustomType) then "Custom verifiable credential for demonstration purposes"
    else "Verifiable Credential"
  }

  /** The members of `data` named in `names`; undefined members are not serialised. */
  function Pick(data: Obj, names: set<string>): (r: Obj)
    ensures r.Keys == names * data.Keys
    ensures forall k :: k in r ==> r[k] == data[k]
  {
    map k | k in names && k in data :: data[k]
  }

  const PidCopied: set<string> := {"family_name", "given_name", "birth_date"}
  const CustomCopied: set<string> := {"department", "role"}

  /** The PID subject: the copied name and birth fields, the age flags and the nationality. */
  function PidSubject(data: Obj, id: Value): (s: Obj)
    ensures s.Keys == {"id", "age_over_18", "age_over_21", "nationality"} + (PidCopied * data.Keys)
    ensures s["id"] == id
    ensures Truthy(s["age_over_18"])
    ensures Given(Lookup(data, "age_over_18")) ==> s["age_over_18"] == data["age_over_18"]
    ensures !Given(Lookup(data, "age_over_18")) ==> s["age_over_18"] == Bool(true)
    ensures !Given(Lookup(data, "age_over_21")) ==> s["age_over_21"] == Bool(false)
    ensures !Given(Lookup(data, "nationality")) ==> s["nationality"] == Str("FR")
    ensures forall k :: k in PidCopied && k in data ==> s[k] == data[k]
  {
    var picked := Pick(data, PidCopied);
    var own := map[
      "id" := id,
      "age_over_18" := Or(Lookup(data, "age_over_18"), Bool(true)),
      "age_over_21" := Or(Lookup(data, "age_over_21"), Bool(false)),
      "nationality" := Or(Lookup(data, "nationality"), Str("FR"))];
    assert own.Keys == {"id", "age_over_18", "age_over_21", "nationality"};
    assert forall k :: k in PidCopied ==> k !in own;
    picked + own
  }

  /** The custom subject: the copied department and role, and `customData`. */
  function CustomSubject(data: Obj, id: Value): (s: Obj)
    ensures s.Keys == {"id", "customData"} + (CustomCopied * data.Keys)
    ensures s["id"] == id
    ensures Given(Lookup(data, "customData")) ==> s["customData"] == data["customData"]
    ensures !Given(Lookup(data, "customData")) ==> s["customData"] == Str("No data provided")
    ensures forall k :: k in CustomCopied && k in data ==> s[k] == data[k]
  {
    var picked := Pick(data, CustomCopied);
    assert picked.Keys == CustomCopied * data.Keys;
    picked + map[
      "id" := id,
      "customData" := Or(Lookup(data, "customData"), Str("No data provided"))]
  }

  /**
   * The `credentialSubject`: an `id` (the supplied subject, else a fresh
   * identifier) and the fields of the type's schema, with defaults applied
   * through `||`.
   */
  function CredentialSubject(data: Obj, t: Value, freshId: string): (s: Obj)
    ensures "id" in s && s["id"] == Or(Lookup(data, "subject"), Str(freshId))
    ensures IsPid(t) ==> s == PidSubject(data, s["id"])
    ensures !IsPid(t) ==> s == CustomSubject(data, s["id"])
  {
    var id := Or(Lookup(data, "subject"), Str(freshId));
    if IsPid(t) then PidSubject(data, id) else CustomSubject(data, id)
  }

  // ---------------------------------------------------------------------
  // Credential payload
  // ---------------------------------------------------------------------

  /** The nested `vc` claim. */
  datatype VcBody = VcBody(context: seq<string>, types: seq<string>, credentialSubject: Obj,
                           name: string, description: string)

  /** The claims of a credential JWT as `signCredential` assembles them. */
  datatype CredentialPayload = CredentialPayload(iss: string, sub: Value, aud: Value, iat: int, exp: int,
                                                 jti: string, vc: VcBody, credentialType: Value)

  /** The three identifiers `signCredential` draws: `sub` fallback, subject `id` fallback, `jti`. */
  datatype SignFresh = SignFresh(sub: string, subjectId: string, jti: string)

  /** Turns a credential payload into a compact JWS; the RS256 signature is not modelled. */
  type Signer = CredentialPayload -> string

  const VcContext: seq<string> := ["https://www.w3.org/2018/credentials/v1",
                                   "https://www.w3.org/2018/credentials/examples/v1"]

  /** `Math.floor(nowMs / 1000)`; Dafny's division by a positive constant floors. */
  function Seconds(nowMs: int): int
  {
    nowMs / 1000
  }

  /** The payload `signCredential` signs for `data` of type `t` at `nowMs`. */
  function CredentialPayloadFor(data: Obj, t: Value, nowMs: int, ids: SignFresh): (p: CredentialPayload)
    ensures p.iat * 1000 <= nowMs < p.iat * 1000 + 1000
    ensures p.exp == p.iat + CredentialValiditySeconds
    ensures p.credentialType == t
    ensures p.iss == IssuerUrl && p.jti == ids.jti
    ensures p.vc.credentialSubject == CredentialSubject(data, t, ids.subjectId)
    ensures Given(Lookup(data, "subject")) ==>
              p.sub == data["subject"] && p.vc.credentialSubject["id"] == data["subject"]
    ensures !Given(Lookup(data, "subject")) ==>
              p.sub == Str(ids.sub) && p.vc.credentialSubject["id"] == Str(ids.subjectId)
    ensures p.aud == (if Given(Lookup(data, "audience")) then data["audience"] else Str(WalletUrl))
    ensures p.vc.types == CredentialTypes(t)
    ensures p.vc.name == CredentialName(t) && p.vc.description == CredentialDescription(t)
  {
    var now := Seconds(nowMs);
    CredentialPayload(
      iss := IssuerUrl,
      sub := Or(Lookup(data, "subject"), Str(ids.sub)),
      aud := Or(Lookup(data, "audience"), Str(WalletUrl)),
      iat := now,
      exp := now + CredentialValiditySeconds,
      jti := ids.jti,
      vc := VcBody(VcContext, CredentialTypes(t), CredentialSubject(data, t, ids.subjectId),
                   CredentialName(t), CredentialDescription(t)),
      credentialType := t)
  }

  /** `signCredential(data, t)`: the signed compact JWT. */
  function SignCredential(sign: Signer, data: Obj, t: Value, nowMs: int, ids: SignFresh): string
  {
    sign(CredentialPayloadFor(data, t, nowMs, ids))
  }

  // ---------------------------------------------------------------------
  // Verification oracle
  // ---------------------------------------------------------------------

  /** The `vp` claim of a presentation; `None` members are absent, or not arrays. */
  datatype VpBody = VpBody(vpType: Option<Value>, verifiableCredential: Option<seq<string>>)

  /** The claims of a verified JWT, whichever kind it is; `None` members are absent. */
  datatype JwtPayload = JwtPayload(iss: Option<Value>, aud: Option<Value>, sub: Option<Value>,
                                   iat: Option<int>, exp: Option<int>, credentialType: Option<Value>,
                                   vp: Option<VpBody>)

  /** What `jwt.verify` does with a token: its payload, or the error it throws. */
  datatype JwtOutcome = Verified(payload: JwtPayload) | BadSignature | TokenExpired

  /** `jwt.verify` against the issuer's public key at a given second. */
  type JwtVerifier = (string, int) -> JwtOutcome

  /**
   * `verifyCredential`: the payload of a token that verifies, and `null`
   * (here `None`) for every token `jwt.verify` rejects, whatever the reason.
   */
  function VerifyCredential(verify: JwtVerifier, token: string, now: int): (r: Option<JwtPayload>)
    ensures r.None? <==> verify(token, now).BadSignature? || verify(token, now).TokenExpired?
    ensures r.Some? ==> verify(token, now) == Verified(r.value)
  {
    match verify(token, now)
    case Verified(payload) => Some(payload)
    case _ => None
  }

  /** `exp && exp < now`: a zero or missing `exp` never counts as expired. */
  predicate ExpiredAt(exp: Option<int>, now: int)
  {
    exp.Some? && exp.value != 0 && exp.value < now
  }

  /**
   * What `jwt.verify` promises with its default options: a token it accepts
   * at `now` carries no `exp`, or one later than `now` (it throws
   * `TokenExpiredError` once `now >= exp`).
   */
  ghost predicate JwtLike(verify: JwtVerifier)
  {
    forall token, now :: verify(token, now).Verified? && verify(token, now).payload.exp.Some? ==>
                           now < verify(token, now).payload.exp.value
  }

  /**
   * Against a verifier that behaves like `jwt.verify`, the explicit
   * `exp && exp < now` checks on presentations and embedded credentials
   * never reject a token that verified: acceptance is verification.
   */
  lemma ExpiryChecksNeverFire(verify: JwtVerifier, token: string, now: int)
    requires JwtLike(verify)
    ensures verify(token, now).Verified? ==> !ExpiredAt(verify(token, now).payload.exp, now)
    ensures CredentialAccepted(verify(token, now), now) <==> verify(token, now).Verified?
  {
  }

  /** Summary of one embedded credential kept on success. */
  datatype CredentialSummary = CredentialSummary(credentialType: Option<Value>, subject: Option<Value>,
                                                 iat: Option<int>, exp: Option<int>)

  function Summarize(p: JwtPayload): CredentialSummary
  {
    CredentialSummary(p.credentialType, p.sub, p.iat, p.exp)
  }

  /** The errors `verifyPresentation` reports, one per failing check. */
  datatype VpError =
    | InvalidTokenSignature
    | PresentationTokenExpired
    | InvalidStructure
    | PresentationExpired(exp: int, now: int)
    | NoCredentials
    | InvalidCredentialSignature
    | CredentialExpired(exp: int, now: int)

  /** `verifyCredential` succeeded and the explicit expiry check passed. */
  predicate CredentialAccepted(o: JwtOutcome, now: int)
  {
    o.Verified? && !ExpiredAt(o.payload.exp, now)
  }

  /** The error reported for an embedded credential that is not accepted. */
  function Rejection(o: JwtOutcome, now: int): VpError
    requires !CredentialAccepted(o, now)
  {
    if o.Verified? then CredentialExpired(o.payload.exp.value, now) else InvalidCredentialSignature
  }

  /**
   * The loop over embedded credentials: the first one that does not verify,
   * or is expired, stops the loop with its error; otherwise one summary per
   * credential, in order.
   */
  function CheckCredentials(tokens: seq<string>, verify: JwtVerifier, now: int): (r: Result<seq<CredentialSummary>, VpError>)
    ensures r.Success? <==> forall i :: 0 <= i < |tokens| ==> CredentialAccepted(verify(tokens[i], now), now)
    ensures r.Success? ==> |r.value| == |tokens|
    ensures r.Success? ==> forall i :: 0 <= i < |tokens| ==> r.value[i] == Summarize(verify(tokens[i], now).payload)
    ensures r.Failure? ==> exists i :: 0 <= i < |tokens| && !CredentialAccepted(verify(tokens[i], now), now)
                                       && (forall j :: 0 <= j < i ==> CredentialAccepted(verify(tokens[j], now), now))
                                       && r.error == Rejection(verify(tokens[i], now), now)
  {
    if tokens == [] then Success([])
    else
      var o := verify(tokens[0], now);
      if !CredentialAccepted(o, now) then Failure(Rejection(o, now))
      else
        match CheckCredentials(tokens[1..], verify, now)
        case Failure(e) =>
          assert forall i :: 1 <= i < |tokens| ==> tokens[i] == tokens[1..][i - 1];
          Failure(e)
        case Success(rest) =>
          assert forall i :: 1 <= i < |tokens| ==> tokens[i] == tokens[1..][i - 1];
          Success([Summarize(o.payload)] + rest)
  }

  /** The outcome of `verifyPresentation`; `credentials` stands for `data.credentials`. */
  datatype PresentationCheck = PresentationCheck(valid: bool, data: Option<JwtPayload>,
                                                 credentials: seq<CredentialSummary>, errors: seq<VpError>)

  /** The embedded credential tokens of a presentation payload (`vp?.verifiableCredential || []`). */
  function EmbeddedCredentials(p: JwtPayload): seq<string>
  {
    if p.vp.Some? && p.vp.value.verifiableCredential.Some? then p.vp.value.verifiableCredential.value else []
  }

  /**
   * Everything a verified presentation payload must satisfy, stated at once:
   * it is typed as a presentation, it is not expired, it embeds at least one
   * credential, and every embedded credential is accepted.
   */
  predicate PayloadAccepted(p: JwtPayload, verify: JwtVerifier, now: int)
  {
    && p.vp.Some?
    && p.vp.value.vpType == Some(Str(PresentationType))
    && !ExpiredAt(p.exp, now)
    && p.vp.value.verifiableCredential.Some?
    && |p.vp.value.verifiableCredential.value| > 0
    && forall i :: 0 <= i < |EmbeddedCredentials(p)| ==>
         CredentialAccepted(verify(EmbeddedCredentials(p)[i], now), now)
  }

  /** A presentation is accepted when its own token verifies and its payload is accepted. */
  predicate PresentationAccepted(token: string, verify: JwtVerifier, now: int)
  {
    verify(token, now).Verified? && PayloadAccepted(verify(token, now).payload, verify, now)
  }

  function Reject(p: JwtPayload, e: VpError): PresentationCheck
  {
    PresentationCheck(false, Some(p), [], [e])
  }

  /** Steps 2 to 5 of `verifyPresentation`, once the presentation's own token has verified. */
  function CheckPayload(p: JwtPayload, verify: JwtVerifier, now: int): (r: PresentationCheck)
    ensures r.data == Some(p)
    ensures r.valid <==> PayloadAccepted(p, verify, now)
    ensures r.valid <==> r.errors == []
    ensures !r.valid <==> |r.errors| == 1
    ensures !r.valid ==> r.credentials == []
    ensures r.valid ==>
      var tokens := EmbeddedCredentials(p);
      && |r.credentials| == |tokens|
      && forall i :: 0 <= i < |tokens| ==> r.credentials[i] == Summarize(verify(tokens[i], now).payload)
  {
    if p.vp.None? || p.vp.value.vpType != Some(Str(PresentationType)) then Reject(p, InvalidStructure)
    else if ExpiredAt(p.exp, now) then Reject(p, PresentationExpired(p.exp.value, now))
    else if p.vp.value.verifiableCredential.None? || |p.vp.value.verifiableCredential.value| == 0 then
      Reject(p, NoCredentials)
    else
      var tokens := p.vp.value.verifiableCredential.value;
      assert EmbeddedCredentials(p) == tokens;
      match CheckCredentials(tokens, verify, now)
      case Failure(e) =>
        assert !forall i :: 0 <= i < |tokens| ==> CredentialAccepted(verify(tokens[i], now), now);
        Reject(p, e)
      case Success(summaries) => PresentationCheck(true, Some(p), summaries, [])
  }

  /** `verifyPresentation(token)` at second `now`. */
  function VerifyPresentation(token: string, verify: JwtVerifier, now: int): (r: PresentationCheck)
    ensures r.valid <==> PresentationAccepted(token, verify, now)
    ensures r.valid <==> r.errors == []
    ensures !r.valid <==> |r.errors| == 1
    ensures r.data.Some? <==> verify(token, now).Verified?
    ensures r.data.Some? ==> r.data.value == verify(token, now).payload
    ensures !r.valid ==> r.credentials == []
    ensures r.valid ==>
      var tokens := EmbeddedCredentials(r.data.value);
      && |r.credentials| == |tokens|
      && forall i :: 0 <= i < |tokens| ==> r.credentials[i] == Summarize(verify(tokens[i], now).payload)
  {
    match verify(token, now)
    case BadSignature => PresentationCheck(false, None, [], [InvalidTokenSignature])
    case TokenExpired => PresentationCheck(false, None, [], [PresentationTokenExpired])
    case Verified(p) => CheckPayload(p, verify, now)
  }

  /**
   * A presentation that embeds one credential that is not accepted is
   * rejected, whatever the other credentials are.
   */
  lemma OneBadCredentialSpoilsPresentation(token: string, verify: JwtVerifier, now: int, i: int)
    requires verify(token, now).Verified?
    requires 0 <= i < |EmbeddedCredentials(verify(token, now).payload)|
    requires !CredentialAccepted(verify(EmbeddedCredentials(verify(token, now).payload)[i], now), now)
    ensures !VerifyPresentation(token, verify, now).valid
    ensures VerifyPresentation(token, verify, now).credentials == []
  {
  }

  // ---------------------------------------------------------------------
  // Claim validation
  // ---------------------------------------------------------------------

  /** `jwt.decode(token)?.vc?.credentialSubject` when it is an object; no signature check. */
  type SubjectDecoder = string -> Option<Obj>

  /** A claim that must carry a given value in some embedded credential. */
  datatype ClaimConstraint = ClaimConstraint(claim: string, expected: Value)

  /**
   * What a verifier asks of a presentation. `claimConstraints` lists the
   * entries of the constraints object in `Object.entries` order; absent
   * lists are empty.
   */
  datatype Requirements = Requirements(requiredClaims: seq<string>, claimConstraints: seq<ClaimConstraint>)

  datatype ClaimsValidation = ClaimsValidation(valid: bool, missingClaims: seq<string>,
                                               invalidClaims: seq<ClaimConstraint>)

  predicate HasClaim(s: Option<Obj>, claim: string)
  {
    s.Some? && claim in s.value
  }

  predicate HasValue(s: Option<Obj>, c: ClaimConstraint)
  {
    s.Some? && c.claim in s.value && s.value[c.claim] == c.expected
  }

  /** The scan, with `break`, for a credential whose subject has `claim`. */
  function ClaimPresent(claim: string, tokens: seq<string>, decode: SubjectDecoder): (found: bool)
    ensures found <==> exists i :: 0 <= i < |tokens| && HasClaim(decode(tokens[i]), claim)
  {
    if tokens == [] then false
    else if HasClaim(decode(tokens[0]), claim) then true
    else
      assert forall i :: 1 <= i < |tokens| ==> tokens[i] == tokens[1..][i - 1];
      ClaimPresent(claim, tokens[1..], decode)
  }

  /** The scan for a credential whose subject carries the constrained value. */
  function ValuePresent(c: ClaimConstraint, tokens: seq<string>, decode: SubjectDecoder): (found: bool)
    ensures found <==> exists i :: 0 <= i < |tokens| && HasValue(decode(tokens[i]), c)
  {
    if tokens == [] then false
    else if HasValue(decode(tokens[0]), c) then true
    else
      assert forall i :: 1 <= i < |tokens| ==> tokens[i] == tokens[1..][i - 1];
      ValuePresent(c, tokens[1..], decode)
  }

  /** The required claims found in no credential, in the order they were required. */
  function MissingClaims(required: seq<string>, tokens: seq<string>, decode: SubjectDecoder): (r: seq<string>)
    ensures forall c :: c in r <==> c in required && !ClaimPresent(c, tokens, decode)
    ensures |r| <= |required|
  {
    if required == [] then []
    else
      var rest := MissingClaims(required[1..], tokens, decode);
      if ClaimPresent(required[0], tokens, decode) then rest else [required[0]] + rest
  }

  /** The constraints no credential satisfies, in the order they were given. */
  function InvalidClaims(constraints: seq<ClaimConstraint>, tokens: seq<string>, decode: SubjectDecoder): (r: seq<ClaimConstraint>)
    ensures forall c :: c in r <==> c in constraints && !ValuePresent(c, tokens, decode)
    ensures |r| <= |constraints|
  {
    if constraints == [] then []
    else
      var rest := InvalidClaims(constraints[1..], tokens, decode);
      if ValuePresent(constraints[0], tokens, decode) then rest else [constraints[0]] + rest
  }

  /** `validatePresentationClaims(payload, requirements)`. */
  function ValidatePresentationClaims(p: JwtPayload, req: Requirements, decode: SubjectDecoder): (r: ClaimsValidation)
    ensures r.valid <==> r.missingClaims == [] && r.invalidClaims == []
    ensures r.valid <==>
      && (forall c :: c in req.requiredClaims ==> ClaimPresent(c, EmbeddedCredentials(p), decode))
      && (forall c :: c in req.claimConstraints ==> ValuePresent(c, EmbeddedCredentials(p), decode))
    ensures req.requiredClaims == [] && req.claimConstraints == [] ==> r.valid
  {
    var tokens := EmbeddedCredentials(p);
    var missing := MissingClaims(req.requiredClaims, tokens, decode);
    var invalid := InvalidClaims(req.claimConstraints, tokens, decode);
    assert missing == [] <==> forall c :: c in req.requiredClaims ==> ClaimPresent(c, tokens, decode) by {
      if missing != [] { assert missing[0] in missing; }
    }
    assert invalid == [] <==> forall c :: c in req.claimConstraints ==> ValuePresent(c, tokens, decode) by {
      if invalid != [] { assert invalid[0] in invalid; }
    }
    ClaimsValidation(missing == [] && invalid == [], missing, invalid)
  }

  /** Missing claims are reported in the order they were required, duplicates included. */
  lemma {:induction false} MissingClaimsOrder(a: seq<string>, b: seq<string>, tokens: seq<string>, decode: SubjectDecoder)
    ensures MissingClaims(a + b, tokens, decode) == MissingClaims(a, tokens, decode) + MissingClaims(b, tokens, decode)
  {
    if a == [] {
      assert a + b == b;
    } else {
      assert (a + b)[1..] == a[1..] + b;
      MissingClaimsOrder(a[1..], b, tokens, decode);
    }
  }

  /** Invalid constraints are reported in the order they were given. */
  lemma {:induction false} InvalidClaimsOrder(a: seq<ClaimConstraint>, b: seq<ClaimConstraint>, tokens: seq<string>, decode: SubjectDecoder)
    ensures InvalidClaims(a + b, tokens, decode) == InvalidClaims(a, tokens, decode) + InvalidClaims(b, tokens, decode)
  {
    if a == [] {
      assert a + b == b;
    } else {
      assert (a + b)[1..] == a[1..] + b;
      InvalidClaimsOrder(a[1..], b, tokens, decode);
    }
  }

  // ---------------------------------------------------------------------
  // Presentation request
  // ---------------------------------------------------------------------

  /** One field constraint of an input descriptor. */
  datatype Field = Field(path: seq<string>, purpose: Option<string>, filterPattern: Option<Value>)

  /** An input descriptor of a presentation definition. */
  datatype Descriptor = Descriptor(id: string, name: Value, purpose: string, algs: seq<string>, fields: seq<Field>)

  /** The descriptor used when the caller supplies none: any credential with a subject. */
  const DefaultDescriptor: Descriptor :=
    Descriptor("credential-1", Str("Required Credential"), "Please provide a verifiable credential", ["RS256"],
               [Field(["$.vc.credentialSubject"], Some("Verification of credential subject"), None)])

  /** The caller's options, any JSON value; `None` and falsy values fall back to defaults. */
  datatype RequestOptions = RequestOptions(clientId: Option<Value>, redirectUri: Option<Value>,
                                           inputDescriptors: Option<seq<Descriptor>>,
                                           state: Option<Value>, nonce: Option<Value>)

  /** Identifiers drawn for a request: its id, and fallbacks for state and nonce. */
  datatype RequestFresh = RequestFresh(requestId: string, state: string, nonce: string)

  datatype PresentationRequest = PresentationRequest(requestId: string, clientId: Option<Value>, redirectUri: Value,
                                                     responseType: string, definitionId: string,
                                                     inputDescriptors: seq<Descriptor>,
                                                     iat: int, exp: int, state: Value, nonce: Value)

  /** `config.verifierUrl` as a possibly undefined JSON value. */
  function UrlValue(verifierUrl: Option<string>): Option<Value>
  {
    if verifierUrl.Some? then Some(Str(verifierUrl.value)) else None
  }

  /** `config.verifierUrl`, which the configuration never defines. */
  const ConfiguredVerifierUrl: Option<string> := None

  /** `generatePresentationRequest(options)` under a given `config.verifierUrl`. */
  function PresentationRequestUnder(verifierUrl: Option<string>, options: RequestOptions, nowMs: int,
                                    ids: RequestFresh): PresentationRequest
  {
    var now := Seconds(nowMs);
    PresentationRequest(
      requestId := ids.requestId,
      clientId := if Given(options.clientId) then options.clientId else UrlValue(verifierUrl),
      redirectUri := Or(options.redirectUri, Str(Interpolate(verifierUrl) + "/callback")),
      responseType := "vp_token",
      definitionId := "presentation-def-" + ids.requestId,
      inputDescriptors := if options.inputDescriptors.Some? then options.inputDescriptors.value else [DefaultDescriptor],
      iat := now,
      exp := now + RequestLifetimeSeconds,
      state := Or(options.state, Str(ids.state)),
      nonce := Or(options.nonce, Str(ids.nonce)))
  }

  /** The request exactly as the source builds it, with the undefined verifier URL. */
  function PresentationRequestAsWritten(options: RequestOptions, nowMs: int, ids: RequestFresh): PresentationRequest
  {
    PresentationRequestUnder(ConfiguredVerifierUrl, options, nowMs, ids)
  }

  /** Without caller values, the as-written defaults point at the literal host "undefined". */
  lemma AsWrittenDefaultsAreUndefined(nowMs: int, ids: RequestFresh)
    ensures var r := PresentationRequestAsWritten(RequestOptions(None, None, None, None, None), nowMs, ids);
            r.clientId == None && r.redirectUri == Str("undefined/callback")
  {
  }

  /**
   * `generatePresentationRequest(options)` with the verifier URL taken as the
   * server's base URL, as the rest of the verifier's endpoints use.
   */
  function GeneratePresentationRequest(options: RequestOptions, nowMs: int, ids: RequestFresh): (r: PresentationRequest)
    ensures r.exp == r.iat + RequestLifetimeSeconds
    ensures r.iat * 1000 <= nowMs < r.iat * 1000 + 1000
    ensures r.responseType == "vp_token"
    ensures r.requestId == ids.requestId
    ensures r.definitionId == "presentation-def-" + r.requestId
    ensures r.state == (if Given(options.state) then options.state.value else Str(ids.state))
    ensures r.nonce == (if Given(options.nonce) then options.nonce.value else Str(ids.nonce))
    ensures r.clientId == Some(if Given(options.clientId) then options.clientId.value else Str(BaseUrl))
    ensures r.redirectUri == (if Given(options.redirectUri) then options.redirectUri.value else Str(BaseUrl + "/callback"))
    ensures options.inputDescriptors.None? ==> r.inputDescriptors == [DefaultDescriptor]
    ensures options.inputDescriptors.Some? ==> r.inputDescriptors == options.inputDescriptors.value
  {
    PresentationRequestUnder(Some(BaseUrl), options, nowMs, ids)
  }
}

=== FILE: issuance.dfy ===
/**
 * The issuance session engine of routes/openid4vcIssuance.js: emission
 * sessions kept in an insertion-ordered map, created by `initiate`, read
 * through the offer and status endpoints with lazy expiry (an expired
 * session is deleted by the read that notices it), completed by the
 * callback, and read back by the credential endpoint.
 *
 * The callback looks a session up by its `state` field, which `initiate`
 * never stores: a callback that carries a `state` finds nothing, and one
 * without a `state` takes the oldest session. The model keeps this.
 */
module Issuance {
  import opened Common
  import OrderedMap
  import CredentialSigner

  /** Ten minutes, in milliseconds. */
  const SessionLifetimeMs: int := 10 * 60 * 1000


  /** The credential offer a wallet fetches: issuer, configuration ids, pre-authorized code. */
  datatype CredentialOffer = CredentialOffer(credentialIssuer: string, configurationIds: seq<Value>,
                                             preAuthorizedCode: string)

  datatype EmissionSession = EmissionSession(
    id: string,
    preAuthorizedCode: string,
    userPin: string,
    credentialType: Value,
    credentialData: Obj,
    offer: CredentialOffer,
    walletUrl: string,
    createdAt: int,
    expiresAt: int,
    status: Status,
    state: Option<string>,
    credential: Option<string>,
    completedAt: Option<int>)

  type Sessions = OrderedMap.OMap<EmissionSession>

  // ---------------------------------------------------------------------
  // Initiate
  // ---------------------------------------------------------------------

  /** The body of `POST /issuance/initiate`; `None` members are undefined. */
  datatype InitiateRequest = InitiateRequest(credentialType: Option<Value>, credentialData: Option<Obj>)

  /** The identifiers `initiate` draws: session id, pre-authorized code, PIN. */
  datatype InitiateIds = InitiateIds(sessionId: string, preAuthorizedCode: string, userPin: string)

  /** The answer to `initiate`; the QR image is not modelled. */
  datatype Initiated = Initiated(sessionId: string, preAuthorizedCode: string, userPin: string,
                                 status: string, credentialType: Value, issuer: string,
                                 walletUrl: string, credentialOfferUri: string, expiresIn: int)

  /**
   * The offer's configuration id for a credential type: the lookup table maps
   * each known type to itself and every other type falls back to the input.
   */
  function ConfigurationId(t: Value): (r: Value)
    ensures r == t
  {
    if t == Str(CredentialSigner.CustomType) then Str(CredentialSigner.CustomType)
    else if t == Str(CredentialSigner.PidType) then Str(CredentialSigner.PidType)
    else if t == Str("eu.europa.ec.eudi.diploma") then Str("eu.europa.ec.eudi.diploma")
    else t
  }

  function OfferUri(sessionId: string): string
  {
    BaseUrl + "/offer/" + sessionId
  }

  /** `POST /issuance/initiate` at `nowMs`. */
  function Initiate(store: Sessions, req: InitiateRequest, ids: InitiateIds, nowMs: int): (out: Step<Sessions, Initiated>)
    ensures ids.sessionId in out.store.entries
    ensures var s := out.store.entries[ids.sessionId];
      && s.id == ids.sessionId
      && s.status == Pending
      && s.createdAt == nowMs
      && s.expiresAt == s.createdAt + SessionLifetimeMs
      && s.credentialType == (if req.credentialType.Some? then req.credentialType.value else Str(CredentialSigner.CustomType))
      && s.preAuthorizedCode == ids.preAuthorizedCode
      && s.offer.preAuthorizedCode == s.preAuthorizedCode
      && s.offer.configurationIds == [s.credentialType]
      && s.state.None? && s.credential.None?
    ensures OrderedMap.SameExcept(store.entries, out.store.entries, ids.sessionId)
    ensures ids.sessionId !in store.entries ==> |out.store.entries| == |store.entries| + 1
    ensures out.reply.Ok?
    ensures out.reply.body.sessionId == ids.sessionId && out.reply.body.expiresIn * 1000 == SessionLifetimeMs
    ensures out.reply.body.credentialOfferUri == OfferUri(ids.sessionId)
  {
    var t := if req.credentialType.Some? then req.credentialType.value else Str(CredentialSigner.CustomType);
    var data := if req.credentialData.Some? then req.credentialData.value else map[];
    var offer := CredentialOffer(IssuerUrl, [ConfigurationId(t)], ids.preAuthorizedCode);
    var session := EmissionSession(ids.sessionId, ids.preAuthorizedCode, ids.userPin, t, data, offer, WalletUrl,
                                   nowMs, nowMs + SessionLifetimeMs, Pending, None, None, None);
    var after := OrderedMap.Set(store, ids.sessionId, session);
    assert ids.sessionId !in store.entries ==> after.entries.Keys == store.entries.Keys + {ids.sessionId};
    Step(after, Ok(Initiated(ids.sessionId, ids.preAuthorizedCode, ids.userPin, "initiated", t, IssuerUrl,
                             WalletUrl, OfferUri(ids.sessionId), 600)))
  }

  // ---------------------------------------------------------------------
  // Reads with lazy expiry
  // ---------------------------------------------------------------------

  /** Whether a session is past its expiry (`new Date() > expires_at`). */
  predicate Expired(s: EmissionSession, nowMs: int)
  {
    nowMs > s.expiresAt
  }

  /** `GET /offer/:sessionId`. */
  function ReadOffer(store: Sessions, id: string, nowMs: int): (out: Step<Sessions, CredentialOffer>)
    ensures id !in store.entries ==> out.store == store && out.reply == Fail(404, "offer_not_found")
    ensures id in store.entries && Expired(store.entries[id], nowMs) ==>
              out.store.entries == store.entries - {id} && out.reply == Fail(410, "offer_expired")
    ensures id in store.entries && !Expired(store.entries[id], nowMs) ==>
              out.store == store && out.reply == Ok(store.entries[id].offer)
  {
    match OrderedMap.Get(store, id)
    case None => Step(store, Fail(404, "offer_not_found"))
    case Some(s) =>
      if Expired(s, nowMs) then Step(OrderedMap.Delete(store, id), Fail(410, "offer_expired"))
      else Step(store, Ok(s.offer))
  }

  /** The answer to a status poll. */
  datatype SessionView = SessionView(sessionId: string, status: Status, credentialType: Value,
                                     createdAt: int, expiresAt: int, credential: Option<string>)

  /** `GET /issuance/session/:sessionId`. */
  function ReadSession(store: Sessions, id: string, nowMs: int): (out: Step<Sessions, SessionView>)
    ensures id !in store.entries ==> out.store == store && out.reply == Fail(404, "session_not_found")
    ensures id in store.entries && Expired(store.entries[id], nowMs) ==>
              out.store.entries == store.entries - {id} && out.reply == Fail(410, "session_expired")
    ensures id in store.entries && !Expired(store.entries[id], nowMs) ==>
              && out.store == store && out.reply.Ok?
              && out.reply.body.status == store.entries[id].status
              && out.reply.body.credential == store.entries[id].credential
  {
    match OrderedMap.Get(store, id)
    case None => Step(store, Fail(404, "session_not_found"))
    case Some(s) =>
      if Expired(s, nowMs) then Step(OrderedMap.Delete(store, id), Fail(410, "session_expired"))
      else Step(store, Ok(SessionView(id, s.status, s.credentialType, s.createdAt, s.expiresAt, s.credential)))
  }

  // ---------------------------------------------------------------------
  // Callback
  // ---------------------------------------------------------------------

  /** Identifiers the callback draws: the `user:` subject, and those of `signCredential`. */
  datatype CallbackIds = CallbackIds(userId: string, sign: CredentialSigner.SignFresh)

  /** The redirect to the wallet, described by its query parameters. */
  datatype CallbackRedirect = CallbackRedirect(walletUrl: string, credential: string, format: string, state: string)

  /** `{subject: 'user:' + id, ...credential_data}`: stored data overrides the generated subject. */
  function CallbackData(data: Obj, userId: string): (d: Obj)
    ensures d.Keys == data.Keys + {"subject"}
    ensures forall k :: k in data ==> d[k] == data[k]
    ensures "subject" !in data ==> d["subject"] == Str("user:" + userId)
  {
    map["subject" := Str("user:" + userId)] + data
  }

  /** The session a callback with query `state` locates: the first whose `state` field equals it. */
  function StateMatches(state: Option<string>): EmissionSession -> bool
  {
    (s: EmissionSession) => s.state == state
  }

  /** The session after a successful callback has stored `token` at `nowMs`. */
  function CompletedWith(s: EmissionSession, token: string, nowMs: int): EmissionSession
  {
    s.(status := Completed, credential := Some(token), completedAt := Some(nowMs))
  }

  /** `GET /issuance/callback?state&code`; `code` is read but never used. */
  function Callback(store: Sessions, state: Option<string>, code: Option<string>, nowMs: int,
                    sign: CredentialSigner.Signer, ids: CallbackIds): (out: Step<Sessions, CallbackRedirect>)
    ensures (forall k :: k in store.entries ==> store.entries[k].state != state) ==>
              out.store == store && out.reply == Fail(400, "invalid_state")
    ensures out.reply.Fail? ==> out.reply.status == 400 || out.reply.status == 410
    ensures out.reply.Fail? && out.reply.status == 400 ==> out.store == store
    ensures var f := OrderedMap.Find(store, StateMatches(state));
            (out.reply.Fail? && out.reply.status == 410) <==> f.Some? && Expired(store.entries[f.value], nowMs)
    ensures var f := OrderedMap.Find(store, StateMatches(state));
            f.Some? && Expired(store.entries[f.value], nowMs) ==>
              out.store == OrderedMap.Delete(store, f.value) && out.reply == Fail(410, "session_expired")
    ensures var f := OrderedMap.Find(store, StateMatches(state));
            out.reply.Redirect? <==> f.Some? && !Expired(store.entries[f.value], nowMs)
    ensures var f := OrderedMap.Find(store, StateMatches(state));
            f.Some? && !Expired(store.entries[f.value], nowMs) ==>
              var s := store.entries[f.value];
              && out.reply.Redirect?
              && out.reply.body == CallbackRedirect(s.walletUrl, out.reply.body.credential, JwtVcJson, Interpolate(state))
              && out.reply.body.credential == CredentialSigner.SignCredential(
                   sign, CallbackData(s.credentialData, ids.userId), s.credentialType, nowMs, ids.sign)
              && out.store.entries == store.entries[f.value := CompletedWith(s, out.reply.body.credential, nowMs)]
  {
    match OrderedMap.Find(store, StateMatches(state))
    case None => Step(store, Fail(400, "invalid_state"))
    case Some(id) =>
      var s := store.entries[id];
      if Expired(s, nowMs) then Step(OrderedMap.Delete(store, id), Fail(410, "session_expired"))
      else
        var token := CredentialSigner.SignCredential(sign, CallbackData(s.credentialData, ids.userId),
                                                     s.credentialType, nowMs, ids.sign);
        Step(OrderedMap.Set(store, id, CompletedWith(s, token, nowMs)),
             Redirect(CallbackRedirect(s.walletUrl, token, JwtVcJson, Interpolate(state))))
  }

  // ---------------------------------------------------------------------
  // Credential read
  // ---------------------------------------------------------------------

  datatype IssuedCredential = IssuedCredential(credential: Option<string>, format: string, credentialType: Value)

  /** `GET /issuance/credential/:sessionId`: no expiry check, no mutation. */
  function ReadCredential(store: Sessions, id: string): (out: Step<Sessions, IssuedCredential>)
    ensures out.store == store
    ensures id !in store.entries ==> out.reply == Fail(404, "session_not_found")
    ensures id in store.entries && store.entries[id].status != Completed ==>
              out.reply == Fail(400, "credential_not_ready")
    ensures out.reply.Ok? <==> id in store.entries && store.entries[id].status == Completed
    ensures out.reply.Ok? ==> out.reply.body.credential == store.entries[id].credential
                              && out.reply.body.format == JwtVcJson
  {
    match OrderedMap.Get(store, id)
    case None => Step(store, Fail(404, "session_not_found"))
    case Some(s) =>
      if s.status != Completed then Step(store, Fail(400, "credential_not_ready"))
      else Step(store, Ok(IssuedCredential(s.credential, JwtVcJson, s.credentialType)))
  }

  // ---------------------------------------------------------------------
  // The engine as a whole
  // ---------------------------------------------------------------------

  /** Every request the engine serves. */
  datatype Request =
    | InitiateCall(req: InitiateRequest, ids: InitiateIds)
    | OfferCall(sessionId: string)
    | SessionCall(sessionId: string)
    | CallbackCall(state: Option<string>, code: Option<string>, cids: CallbackIds)
    | CredentialCall(sessionId: string)

  /** The session map after serving `r` at `nowMs`. */
  function Handle(store: Sessions, r: Request, nowMs: int, sign: CredentialSigner.Signer): Sessions
  {
    match r
    case InitiateCall(req, ids) => Initiate(store, req, ids, nowMs).store
    case OfferCall(id) => ReadOffer(store, id, nowMs).store
    case SessionCall(id) => ReadSession(store, id, nowMs).store
    case CallbackCall(state, code, cids) => Callback(store, state, code, nowMs, sign, cids).store
    case CredentialCall(id) => ReadCredential(store, id).store
  }

  /** No stored session carries a `state` field. */
  ghost predicate NoStoredState(store: Sessions)
  {
    forall k :: k in store.entries ==> store.entries[k].state.None?
  }

  /** Every completed session holds its credential. */
  ghost predicate CompletedHaveCredential(store: Sessions)
  {
    forall k :: k in store.entries && store.entries[k].status == Completed ==> store.entries[k].credential.Some?
  }

  /** One session's share of the invariant: no stored state, and a credential once completed. */
  predicate SessionOk(s: EmissionSession)
  {
    s.state.None? && (s.status == Completed ==> s.credential.Some?)
  }

  /** What every reachable session map satisfies. */
  ghost predicate Invariant(store: Sessions)
  {
    OrderedMap.Valid(store) && OrderedMap.All(store, SessionOk)
  }

  lemma EmptyInvariant()
    ensures Invariant(OrderedMap.Empty<EmissionSession>())
  {
  }

  /** The invariant gives both per-session facts. */
  lemma InvariantMeans(store: Sessions)
    requires Invariant(store)
    ensures NoStoredState(store) && CompletedHaveCredential(store)
  {
    forall k | k in store.entries ensures SessionOk(store.entries[k]) {
    }
  }

  lemma InitiateKeepsInvariant(store: Sessions, req: InitiateRequest, ids: InitiateIds, nowMs: int)
    requires Invariant(store)
    ensures Invariant(Initiate(store, req, ids, nowMs).store)
  {
    var out := Initiate(store, req, ids, nowMs);
    OrderedMap.SetKeepsAll(store, ids.sessionId, out.store.entries[ids.sessionId], SessionOk);
  }

  lemma CallbackKeepsInvariant(store: Sessions, state: Option<string>, code: Option<string>, nowMs: int,
                               sign: CredentialSigner.Signer, ids: CallbackIds)
    requires Invariant(store)
    ensures Invariant(Callback(store, state, code, nowMs, sign, ids).store)
  {
    var found := OrderedMap.Find(store, StateMatches(state));
    if found.Some? {
      var id := found.value;
      var s := store.entries[id];
      assert SessionOk(s);
      if Expired(s, nowMs) {
        OrderedMap.DeleteKeepsAll(store, id, SessionOk);
      } else {
        var token := CredentialSigner.SignCredential(sign, CallbackData(s.credentialData, ids.userId),
                                                     s.credentialType, nowMs, ids.sign);
        OrderedMap.SetKeepsAll(store, id, CompletedWith(s, token, nowMs), SessionOk);
      }
    }
  }

  /** Every request keeps the invariant. */
  lemma HandleKeepsInvariant(store: Sessions, r: Request, nowMs: int, sign: CredentialSigner.Signer)
    requires Invariant(store)
    ensures Invariant(Handle(store, r, nowMs, sign))
  {
    match r
    case InitiateCall(req, ids) => InitiateKeepsInvariant(store, req, ids, nowMs);
    case OfferCall(id) => OrderedMap.DeleteKeepsAll(store, id, SessionOk);
    case SessionCall(id) => OrderedMap.DeleteKeepsAll(store, id, SessionOk);
    case CallbackCall(state, code, cids) => CallbackKeepsInvariant(store, state, code, nowMs, sign, cids);
    case CredentialCall(id) =>
  }

  /**
   * No request other than a new `initiate` reusing the same session id turns
   * a completed session back into something else.
   */
  lemma CompletedIsFinal(store: Sessions, r: Request, nowMs: int, sign: CredentialSigner.Signer, id: string)
    requires id in store.entries && store.entries[id].status == Completed
    requires !(r.InitiateCall? && r.ids.sessionId == id)
    requires id in Handle(store, r, nowMs, sign).entries
    ensures Handle(store, r, nowMs, sign).entries[id].status == Completed
  {
    match r
    case InitiateCall(req, ids) =>
      assert OrderedMap.SameExcept(store.entries, Initiate(store, req, ids, nowMs).store.entries, ids.sessionId);
    case OfferCall(_) =>
    case SessionCall(_) =>
    case CallbackCall(state, code, cids) => CallbackOnlyCompletes(store, state, code, nowMs, sign, cids, id);
    case CredentialCall(_) =>
  }

  /** A session the callback leaves in place is either untouched or completed. */
  lemma CallbackOnlyCompletes(store: Sessions, state: Option<string>, code: Option<string>, nowMs: int,
                              sign: CredentialSigner.Signer, ids: CallbackIds, id: string)
    ensures var after := Callback(store, state, code, nowMs, sign, ids).store;
            id in after.entries ==>
              id in store.entries && (after.entries[id] == store.entries[id] || after.entries[id].status == Completed)
  {
    var out := Callback(store, state, code, nowMs, sign, ids);
    var found := OrderedMap.Find(store, StateMatches(state));
    if found.None? {
      assert out.store == store;
    } else if Expired(store.entries[found.value], nowMs) {
      assert out.store.entries == store.entries - {found.value};
    } else {
      LiveCallback(store, state, code, nowMs, sign, ids, found.value);
      OrderedMap.SetOnlyTouches(store, found.value,
                                CompletedWith(store.entries[found.value], out.reply.body.credential, nowMs));
    }
  }

  /** The callback is the only request that completes a pending session. */
  lemma OnlyCallbackCompletes(store: Sessions, r: Request, nowMs: int, sign: CredentialSigner.Signer, id: string)
    requires id in store.entries && store.entries[id].status == Pending
    requires id in Handle(store, r, nowMs, sign).entries
    requires Handle(store, r, nowMs, sign).entries[id].status == Completed
    ensures r.CallbackCall?
  {
  }

  // ---------------------------------------------------------------------
  // Properties of the callback lookup
  // ---------------------------------------------------------------------

  /** Because no session stores a `state`, a callback that carries one never finds a session. */
  lemma CallbackWithStateRejected(store: Sessions, state: string, code: Option<string>, nowMs: int,
                                  sign: CredentialSigner.Signer, ids: CallbackIds)
    requires NoStoredState(store)
    ensures Callback(store, Some(state), code, nowMs, sign, ids) == Step(store, Fail(400, "invalid_state"))
  {
  }

  /**
   * A callback without a `state` matches every session and so takes the
   * oldest one, in insertion order: it completes that session if it is live.
   */
  lemma CallbackWithoutStateTakesOldest(store: Sessions, code: Option<string>, nowMs: int,
                                         sign: CredentialSigner.Signer, ids: CallbackIds)
    requires Invariant(store) && |store.keys| > 0
    requires !Expired(store.entries[store.keys[0]], nowMs)
    ensures var id := store.keys[0];
            var out := Callback(store, None, code, nowMs, sign, ids);
            && out.reply.Redirect?
            && out.store.entries[id].status == Completed
            && out.store.entries[id].credential == Some(out.reply.body.credential)
            && OrderedMap.SameExcept(store.entries, out.store.entries, id)
  {
    assert SessionOk(store.entries[store.keys[0]]);
    OrderedMap.FindOldest(store, StateMatches(None));
    LiveCallback(store, None, code, nowMs, sign, ids, store.keys[0]);
    var out := Callback(store, None, code, nowMs, sign, ids);
    OrderedMap.SetOnlyTouches(store, store.keys[0],
                              CompletedWith(store.entries[store.keys[0]], out.reply.body.credential, nowMs));
  }

  /** The callback on a live located session stores the credential it redirects with. */
  lemma LiveCallback(store: Sessions, state: Option<string>, code: Option<string>, nowMs: int,
                     sign: CredentialSigner.Signer, ids: CallbackIds, id: string)
    requires OrderedMap.Find(store, StateMatches(state)) == Some(id)
    requires !Expired(store.entries[id], nowMs)
    ensures var out := Callback(store, state, code, nowMs, sign, ids);
            && out.reply.Redirect?
            && out.reply.body == CallbackRedirect(store.entries[id].walletUrl, out.reply.body.credential, JwtVcJson, Interpolate(state))
            && out.store == OrderedMap.Set(store, id, CompletedWith(store.entries[id], out.reply.body.credential, nowMs))
  {
  }

  // ---------------------------------------------------------------------
  // Round trips through the engine
  // ---------------------------------------------------------------------

  /** The offer read back within ten minutes is the one `initiate` built. */
  lemma InitiateThenReadOffer(store: Sessions, req: InitiateRequest, ids: InitiateIds, t0: int, t1: int)
    requires t1 <= t0 + SessionLifetimeMs
    ensures var after := Initiate(store, req, ids, t0).store;
            var read := ReadOffer(after, ids.sessionId, t1);
            && read.store == after
            && read.reply.Ok?
            && read.reply.body.preAuthorizedCode == ids.preAuthorizedCode
            && read.reply.body.configurationIds == [after.entries[ids.sessionId].credentialType]
  {
  }

  /** A freshly initiated session reports `pending` with no credential. */
  lemma InitiateThenStatusPending(store: Sessions, req: InitiateRequest, ids: InitiateIds, t0: int, t1: int)
    requires t1 <= t0 + SessionLifetimeMs
    ensures var read := ReadSession(Initiate(store, req, ids, t0).store, ids.sessionId, t1);
            read.reply.Ok? && read.reply.body.status == Pending && read.reply.body.credential.None?
  {
  }

  /** A read after expiry answers 410 and deletes; the next read of the same id answers 404. */
  lemma ExpiredReadThenNotFound(store: Sessions, id: string, t1: int, t2: int)
    requires id in store.entries && Expired(store.entries[id], t1)
    ensures var first := ReadSession(store, id, t1);
            && first.reply == Fail(410, "session_expired")
            && ReadSession(first.store, id, t2).reply == Fail(404, "session_not_found")
            && ReadOffer(first.store, id, t2).reply == Fail(404, "offer_not_found")
  {
  }

  /** Once completed, the credential can be read any number of times, with the same answer. */
  lemma CredentialReadIsRepeatable(store: Sessions, id: string)
    requires CompletedHaveCredential(store)
    requires id in store.entries && store.entries[id].status == Completed
    ensures var first := ReadCredential(store, id);
            && first.reply.Ok? && first.reply.body.credential.Some?
            && ReadCredential(first.store, id) == first
  {
  }
}

=== FILE: openid4vp.dfy ===
/**
 * The request-object and presentation-response engine of routes/openid4vp.js:
 * request objects created by a verifier and fetched by a wallet, the
 * ordered check pipeline a posted presentation goes through, the stored
 * verification responses, the `/verify` utility, the statistics and the
 * periodic sweep of expired entries (here a plain function of the clock).
 */
module OpenId4Vp {
  import opened Common
  import OrderedMap
  import CredentialSigner

  /** Request objects live ten minutes, verification responses one hour (milliseconds). */
  const RequestLifetimeMs: int := 10 * 60 * 1000
  const ResponseLifetimeMs: int := 60 * 60 * 1000

  /** A request object as stored: the generated request and its own timestamps. */
  datatype StoredRequest = StoredRequest(request: CredentialSigner.PresentationRequest, createdAt: int, expiredAt: int)

  /** A stored verification response (`status` is always `success`, `verified` always true). */
  datatype AuthResponse = AuthResponse(id: string, status: string, verified: bool,
                                       presentation: CredentialSigner.JwtPayload,
                                       credentials: seq<CredentialSigner.CredentialSummary>,
                                       timestamp: int, redirectUri: Option<Value>,
                                       createdAt: int, expiredAt: int)

  datatype VpStore = VpStore(requestObjects: OrderedMap.OMap<StoredRequest>, responses: OrderedMap.OMap<AuthResponse>)

  /** What every reachable store satisfies. */
  ghost predicate Invariant(st: VpStore)
  {
    && OrderedMap.Valid(st.requestObjects) && OrderedMap.All(st.requestObjects, RequestOk)
    && OrderedMap.Valid(st.responses) && OrderedMap.All(st.responses, ResponseOk)
  }

  /** A stored request object lives ten minutes. */
  predicate RequestOk(r: StoredRequest)
  {
    r.expiredAt == r.createdAt + RequestLifetimeMs
  }

  /** A stored response lives an hour and is marked verified. */
  predicate ResponseOk(r: AuthResponse)
  {
    r.expiredAt == r.createdAt + ResponseLifetimeMs && r.verified
  }

  // ---------------------------------------------------------------------
  // Cleanup
  // ---------------------------------------------------------------------

  /** A request object is swept once its own `exp` (seconds) has passed. */
  function RequestDead(nowSec: int): StoredRequest -> bool
  {
    (r: StoredRequest) => r.request.exp < nowSec
  }

  /** A response is swept once its `expiredAt` (milliseconds) has passed. */
  function ResponseDead(nowMs: int): AuthResponse -> bool
  {
    (r: AuthResponse) => r.expiredAt < nowMs
  }

  datatype Cleaned = Cleaned(store: VpStore, cleaned: nat)

  /** `cleanup()` at `nowMs`: both sweeps, and the number of entries they removed. */
  function Cleanup(st: VpStore, nowMs: int): (r: Cleaned)
    ensures forall k :: k in r.store.requestObjects.entries <==>
              k in st.requestObjects.entries && st.requestObjects.entries[k].request.exp >= CredentialSigner.Seconds(nowMs)
    ensures forall k :: k in r.store.responses.entries <==>
              k in st.responses.entries && st.responses.entries[k].expiredAt >= nowMs
    ensures forall k :: k in r.store.requestObjects.entries ==> r.store.requestObjects.entries[k] == st.requestObjects.entries[k]
    ensures forall k :: k in r.store.responses.entries ==> r.store.responses.entries[k] == st.responses.entries[k]
  {
    var nowSec := CredentialSigner.Seconds(nowMs);
    var requests := OrderedMap.Sweep(st.requestObjects, RequestDead(nowSec));
    var responses := OrderedMap.Sweep(st.responses, ResponseDead(nowMs));
    Cleaned(VpStore(requests, responses),
            OrderedMap.DeadCount(st.requestObjects.keys, st.requestObjects.entries, RequestDead(nowSec))
            + OrderedMap.DeadCount(st.responses.keys, st.responses.entries, ResponseDead(nowMs)))
  }

  /**
   * The sweep keeps the invariant; each map shrinks by the number of its
   * own expired entries, and `cleaned` is exactly how much the statistics drop.
   */
  lemma CleanupCount(st: VpStore, nowMs: int)
    requires Invariant(st)
    ensures Invariant(Cleanup(st, nowMs).store)
    ensures var r := Cleanup(st, nowMs);
            Stats(st).pendingRequests == Stats(r.store).pendingRequests
              + OrderedMap.DeadCount(st.requestObjects.keys, st.requestObjects.entries,
                                     RequestDead(CredentialSigner.Seconds(nowMs)))
    ensures var r := Cleanup(st, nowMs);
            Stats(st).verificationResponses == Stats(r.store).verificationResponses
              + OrderedMap.DeadCount(st.responses.keys, st.responses.entries, ResponseDead(nowMs))
    ensures var r := Cleanup(st, nowMs);
            Stats(st).pendingRequests + Stats(st).verificationResponses
              == Stats(r.store).pendingRequests + Stats(r.store).verificationResponses + r.cleaned
  {
    OrderedMap.SweepCount(st.requestObjects, RequestDead(CredentialSigner.Seconds(nowMs)));
    OrderedMap.SweepCount(st.responses, ResponseDead(nowMs));
  }

  /** A second sweep at the same instant removes nothing. */
  lemma CleanupIdempotent(st: VpStore, nowMs: int)
    ensures var once := Cleanup(st, nowMs).store;
            var twice := Cleanup(once, nowMs);
            twice.store.requestObjects.entries == once.requestObjects.entries
            && twice.store.responses.entries == once.responses.entries
            && twice.cleaned == 0
  {
    var nowSec := CredentialSigner.Seconds(nowMs);
    var once := Cleanup(st, nowMs).store;
    OrderedMap.NothingDead(once.requestObjects.keys, once.requestObjects.entries, RequestDead(nowSec));
    OrderedMap.NothingDead(once.responses.keys, once.responses.entries, ResponseDead(nowMs));
    var twice := Cleanup(once, nowMs);
    assert twice.store.requestObjects.entries == once.requestObjects.entries;
    assert twice.store.responses.entries == once.responses.entries;
  }

  // ---------------------------------------------------------------------
  // Statistics
  // ---------------------------------------------------------------------

  /** The counts `/stats` reports; uptime and the endpoint list are not modelled. */
  datatype StatsView = StatsView(pendingRequests: nat, verificationResponses: nat)

  /** `GET /stats`: the sizes of the two maps (expired entries not yet swept included). */
  function Stats(st: VpStore): StatsView
  {
    StatsView(|st.requestObjects.entries|, |st.responses.entries|)
  }

  /** In a reachable store the statistics count the keys in each map's order. */
  lemma StatsCountOrder(st: VpStore)
    requires Invariant(st)
    ensures Stats(st).pendingRequests == |st.requestObjects.keys|
    ensures Stats(st).verificationResponses == |st.responses.keys|
  {
    OrderedMap.SizeIsLength(st.requestObjects);
    OrderedMap.SizeIsLength(st.responses);
  }

  // ---------------------------------------------------------------------
  // Request objects
  // ---------------------------------------------------------------------

  /** The body of `POST /request_object`: any JSON values, `None` members are undefined. */
  datatype RequestObjectBody = RequestObjectBody(inputDescriptors: Option<seq<CredentialSigner.Descriptor>>,
                                                 state: Option<Value>, nonce: Option<Value>,
                                                 redirectUri: Option<Value>, clientId: Option<Value>)

  datatype RequestObjectCreated = RequestObjectCreated(requestId: string, requestObjectUri: string,
                                                       expiresIn: int, requestFormat: string)

  /** The URI advertised for a request object under a given `config.verifierUrl`. */
  function RequestObjectUriUnder(verifierUrl: Option<string>, requestId: string): string
  {
    Interpolate(verifierUrl) + "/request_object/" + requestId
  }

  /** The URI of a request object as written: `config.verifierUrl` is undefined. */
  function RequestObjectUriAsWritten(requestId: string): string
  {
    RequestObjectUriUnder(CredentialSigner.ConfiguredVerifierUrl, requestId)
  }

  /** As written, the advertised URI points at the literal host `undefined`. */
  lemma RequestObjectUriAsWrittenIsUndefined(requestId: string)
    ensures RequestObjectUriAsWritten(requestId) == "undefined/request_object/" + requestId
    ensures RequestObjectUriAsWritten(requestId)[..9] == "undefined"
  {
  }

  /** The URI of a request object on this server, which the GET route below serves. */
  function RequestObjectUri(requestId: string): (u: string)
    ensures |u| == |BaseUrl| + |"/request_object/"| + |requestId|
    ensures u[..|BaseUrl|] == BaseUrl
    ensures u[|u| - |requestId|..] == requestId
  {
    RequestObjectUriUnder(Some(BaseUrl), requestId)
  }

  /**
   * `POST /request_object` at `nowMs` under the configured `verifierUrl`
   * (undefined as the configuration stands, `CredentialSigner.ConfiguredVerifierUrl`).
   * The route fills in `state` and `nonce` (`|| uuidv4()`) before calling the
   * generator, so the generator's own fallbacks never fire; `ids` carries
   * the three drawn identifiers.
   */
  function CreateRequestObject(verifierUrl: Option<string>, st: VpStore, body: RequestObjectBody,
                               ids: CredentialSigner.RequestFresh, nowMs: int): (out: Step<VpStore, RequestObjectCreated>)
    ensures ids.requestId in out.store.requestObjects.entries
    ensures var stored := out.store.requestObjects.entries[ids.requestId];
      && stored.createdAt == nowMs
      && stored.expiredAt == stored.createdAt + RequestLifetimeMs
      && stored.request.requestId == ids.requestId
      && stored.request.state == Or(body.state, Str(ids.state))
      && stored.request.nonce == Or(body.nonce, Str(ids.nonce))
      && stored.request.exp == stored.request.iat + CredentialSigner.RequestLifetimeSeconds
      && stored.request.clientId == (if Given(body.clientId) then body.clientId else CredentialSigner.UrlValue(verifierUrl))
      && stored.request.redirectUri == Or(body.redirectUri, Str(Interpolate(verifierUrl) + "/callback"))
    ensures OrderedMap.SameExcept(st.requestObjects.entries, out.store.requestObjects.entries, ids.requestId)
    ensures out.store.responses == st.responses
    ensures out.reply.Ok?
    ensures out.reply.body.requestId == ids.requestId
    ensures out.reply.body.expiresIn * 1000 == RequestLifetimeMs
    ensures out.reply.body.requestObjectUri == RequestObjectUriUnder(verifierUrl, ids.requestId)
    ensures out.reply.body.requestFormat == JwtVcJson
  {
    var options := CredentialSigner.RequestOptions(body.clientId, body.redirectUri, body.inputDescriptors,
                                                   Some(Or(body.state, Str(ids.state))),
                                                   Some(Or(body.nonce, Str(ids.nonce))));
    var request := CredentialSigner.PresentationRequestUnder(verifierUrl, options, nowMs, ids);
    var stored := StoredRequest(request, nowMs, nowMs + RequestLifetimeMs);
    Step(st.(requestObjects := OrderedMap.Set(st.requestObjects, request.requestId, stored)),
         Ok(RequestObjectCreated(request.requestId, RequestObjectUriUnder(verifierUrl, request.requestId), 600, JwtVcJson)))
  }

  /**
   * As configured, a request object created without caller values
   * advertises a URI on the host `undefined` and stores an undefined
   * `client_id` and a redirect to `undefined/callback`.
   */
  lemma CreateAsWrittenPointsAtUndefined(st: VpStore, ids: CredentialSigner.RequestFresh, nowMs: int)
    ensures var out := CreateRequestObject(CredentialSigner.ConfiguredVerifierUrl, st,
                                           RequestObjectBody(None, None, None, None, None), ids, nowMs);
            && out.reply.body.requestObjectUri == "undefined/request_object/" + ids.requestId
            && out.store.requestObjects.entries[ids.requestId].request.clientId == None
            && out.store.requestObjects.entries[ids.requestId].request.redirectUri == Str("undefined/callback")
  {
  }

  /**
   * With the verifier URL set to the server's base URL, the advertised URI
   * is the one the `GET /request_object/:requestId` route of this server
   * serves, and the stored defaults are the generator's corrected ones.
   */
  lemma CreateOnBaseUrlMatchesGenerator(st: VpStore, body: RequestObjectBody, ids: CredentialSigner.RequestFresh, nowMs: int)
    ensures var out := CreateRequestObject(Some(BaseUrl), st, body, ids, nowMs);
            var options := CredentialSigner.RequestOptions(body.clientId, body.redirectUri, body.inputDescriptors,
                                                           Some(Or(body.state, Str(ids.state))),
                                                           Some(Or(body.nonce, Str(ids.nonce))));
            && out.reply.body.requestObjectUri == RequestObjectUri(ids.requestId)
            && out.store.requestObjects.entries[ids.requestId].request
               == CredentialSigner.GeneratePresentationRequest(options, nowMs, ids)
  {
  }

  /** `GET /request_object/:requestId`. */
  function ReadRequestObject(st: VpStore, id: string, nowMs: int): (out: Step<VpStore, CredentialSigner.PresentationRequest>)
    ensures out.store.responses == st.responses
    ensures id !in st.requestObjects.entries ==> out.store == st && out.reply == Fail(404, "request_not_found")
    ensures id in st.requestObjects.entries && st.requestObjects.entries[id].expiredAt < nowMs ==>
              && out.store.requestObjects.entries == st.requestObjects.entries - {id}
              && out.reply == Fail(410, "request_expired")
    ensures id in st.requestObjects.entries && st.requestObjects.entries[id].expiredAt >= nowMs ==>
              out.store == st && out.reply == Ok(st.requestObjects.entries[id].request)
  {
    match OrderedMap.Get(st.requestObjects, id)
    case None => Step(st, Fail(404, "request_not_found"))
    case Some(r) =>
      if r.expiredAt < nowMs then
        Step(st.(requestObjects := OrderedMap.Delete(st.requestObjects, id)), Fail(410, "request_expired"))
      else Step(st, Ok(r.request))
  }

  /** A created request object reads back unchanged for its ten minutes. */
  lemma CreateThenReadRequestObject(verifierUrl: Option<string>, st: VpStore, body: RequestObjectBody, ids: CredentialSigner.RequestFresh,
                                    t0: int, t1: int)
    requires t1 <= t0 + RequestLifetimeMs
    ensures var created := CreateRequestObject(verifierUrl, st, body, ids, t0);
            var read := ReadRequestObject(created.store, ids.requestId, t1);
            && read.store == created.store
            && read.reply == Ok(created.store.requestObjects.entries[ids.requestId].request)
            && read.reply.body.state == Or(body.state, Str(ids.state))
  {
  }

  // ---------------------------------------------------------------------
  // Presentation pipeline
  // ---------------------------------------------------------------------

  /** The body of `POST /presentation` and of `POST /verify`; `None` members are undefined. */
  datatype PresentationBody = PresentationBody(vpToken: Option<Value>, submission: Option<Value>,
                                               state: Option<Value>, requestId: Option<Value>,
                                               requirements: Option<CredentialSigner.Requirements>)

  /** The answers of `POST /presentation` that carry more than an error code. */
  datatype PresentationAnswer =
    | Accepted(responseId: string, credentialCount: nat, issuer: Option<Value>, audience: Option<Value>,
               issuedAt: int, expiresAt: int)
      /** 400 `invalid_presentation`, with the verifier's errors. */
    | InvalidPresentation(errors: seq<CredentialSigner.VpError>)
      /** 400 `claims_validation_failed`, with what is missing and what does not match. */
    | ClaimsValidationFailed(missingClaims: seq<string>, invalidClaims: seq<CredentialSigner.ClaimConstraint>)

  /**
   * `verifyPresentation(vp_token)`: `jwt.verify` throws on a token that is
   * not a string, which is reported as a signature error.
   */
  function CheckToken(token: Value, verify: CredentialSigner.JwtVerifier, nowSec: int): (r: CredentialSigner.PresentationCheck)
    ensures r.valid <==> token.Str? && CredentialSigner.PresentationAccepted(token.s, verify, nowSec)
    ensures r.valid ==> r.data.Some? && r.errors == []
    ensures !r.valid ==> |r.errors| == 1
  {
    if token.Str? then CredentialSigner.VerifyPresentation(token.s, verify, nowSec)
    else CredentialSigner.PresentationCheck(false, None, [], [CredentialSigner.InvalidTokenSignature])
  }

  /** `requestObjects.get(request_id)`: only a string id can match a stored key. */
  function LookupRequest(st: VpStore, id: Value): Option<StoredRequest>
  {
    if id.Str? && id.s in st.requestObjects.entries then Some(st.requestObjects.entries[id.s]) else None
  }

  /** `state && state !== requestObject.state`. */
  predicate StateMismatch(state: Option<Value>, r: StoredRequest)
  {
    Given(state) && state.value != r.request.state
  }

  /** The request-id gates: no `request_id`, or one naming a stored request whose state agrees. */
  predicate RequestGatesPass(st: VpStore, body: PresentationBody)
  {
    !(Given(body.requestId)
      && (LookupRequest(st, body.requestId.value).None? || StateMismatch(body.state, LookupRequest(st, body.requestId.value).value)))
  }

  /** `req.body.requirements || {}`. */
  function RequirementsOrEmpty(req: Option<CredentialSigner.Requirements>): CredentialSigner.Requirements
  {
    if req.Some? then req.value else CredentialSigner.Requirements([], [])
  }

  /** The response stored for an accepted presentation. */
  function NewResponse(st: VpStore, body: PresentationBody, check: CredentialSigner.PresentationCheck,
                       responseId: string, nowMs: int): AuthResponse
    requires check.data.Some?
  {
    var redirect := if Given(body.requestId) && LookupRequest(st, body.requestId.value).Some?
                    then Some(LookupRequest(st, body.requestId.value).value.request.redirectUri) else None;
    AuthResponse(responseId, "success", true, check.data.value, check.credentials, nowMs, redirect,
                 nowMs, nowMs + ResponseLifetimeMs)
  }

  /**
   * `POST /presentation` at `nowMs`. The checks run in order and the first
   * failing one answers 400 with nothing stored. On success the response is
   * stored first; the answer then renders the presentation's `iat` and `exp`
   * as dates, which throws (500) when either is missing or out of range,
   * after the response has been stored.
   */
  function SubmitPresentation(st: VpStore, body: PresentationBody, verify: CredentialSigner.JwtVerifier,
                              decode: CredentialSigner.SubjectDecoder, responseId: string, nowMs: int): (out: Step<VpStore, PresentationAnswer>)
    ensures out.store.requestObjects == st.requestObjects
    ensures !Given(body.vpToken) ==> out.store == st && out.reply == Fail(400, "invalid_request")
    ensures Given(body.vpToken) ==>
      var nowSec := CredentialSigner.Seconds(nowMs);
      var check := CheckToken(body.vpToken.value, verify, nowSec);
      && (!check.valid ==> out.store == st && out.reply == Refuse(400, InvalidPresentation(check.errors)))
      && (check.valid && Given(body.requestId) && LookupRequest(st, body.requestId.value).None? ==>
            out.store == st && out.reply == Fail(400, "invalid_request"))
      && (check.valid && Given(body.requestId) && LookupRequest(st, body.requestId.value).Some?
            && StateMismatch(body.state, LookupRequest(st, body.requestId.value).value) ==>
            out.store == st && out.reply == Fail(400, "invalid_state"))
      && (check.valid && RequestGatesPass(st, body)
            && !CredentialSigner.ValidatePresentationClaims(check.data.value, RequirementsOrEmpty(body.requirements), decode).valid ==>
            var claims := CredentialSigner.ValidatePresentationClaims(check.data.value, RequirementsOrEmpty(body.requirements), decode);
            out.store == st && out.reply == Refuse(400, ClaimsValidationFailed(claims.missingClaims, claims.invalidClaims)))
      && (check.valid && RequestGatesPass(st, body)
            && CredentialSigner.ValidatePresentationClaims(check.data.value, RequirementsOrEmpty(body.requirements), decode).valid ==>
            var data := check.data.value;
            && out.store.responses.entries == st.responses.entries[responseId := NewResponse(st, body, check, responseId, nowMs)]
            && (out.reply.Ok? <==> IsoInstant(data.iat).Some? && IsoInstant(data.exp).Some?)
            && (!out.reply.Ok? ==> out.reply == Fail(500, "presentation_verification_failed"))
            && (out.reply.Ok? ==> out.reply.body == Accepted(responseId, |check.credentials|, data.iss, data.aud,
                                                             IsoInstant(data.iat).value, IsoInstant(data.exp).value)))
    ensures out.reply.Ok? || (out.reply.Fail? && out.reply.status == 500) ==>
      && Given(body.vpToken)
      && var check := CheckToken(body.vpToken.value, verify, CredentialSigner.Seconds(nowMs));
      && check.valid
      && CredentialSigner.ValidatePresentationClaims(check.data.value, RequirementsOrEmpty(body.requirements), decode).valid
      && out.store.responses.entries == st.responses.entries[responseId := NewResponse(st, body, check, responseId, nowMs)]
    ensures out.reply.Ok? ==> out.reply.body.Accepted? && out.reply.body.responseId == responseId
    ensures out.reply.Ok? ==> out.reply.body.credentialCount == |out.store.responses.entries[responseId].credentials|
  {
    if !Given(body.vpToken) then Step(st, Fail(400, "invalid_request"))
    else
      var check := CheckToken(body.vpToken.value, verify, CredentialSigner.Seconds(nowMs));
      if !check.valid then Step(st, Refuse(400, InvalidPresentation(check.errors)))
      else if Given(body.requestId) && LookupRequest(st, body.requestId.value).None? then
        Step(st, Fail(400, "invalid_request"))
      else if Given(body.requestId) && StateMismatch(body.state, LookupRequest(st, body.requestId.value).value) then
        Step(st, Fail(400, "invalid_state"))
      else
        var claims := CredentialSigner.ValidatePresentationClaims(check.data.value, RequirementsOrEmpty(body.requirements), decode);
        if !claims.valid then Step(st, Refuse(400, ClaimsValidationFailed(claims.missingClaims, claims.invalidClaims)))
        else
          var response := NewResponse(st, body, check, responseId, nowMs);
          var after := st.(responses := OrderedMap.Set(st.responses, responseId, response));
          var data := check.data.value;
          var issued := IsoInstant(data.iat);
          var expires := IsoInstant(data.exp);
          if issued.None? || expires.None? then Step(after, Fail(500, "presentation_verification_failed"))
          else Step(after, Ok(Accepted(responseId, |check.credentials|, data.iss, data.aud, issued.value, expires.value)))
  }

  /** What a stored response says about one credential. */
  datatype CredentialInfo = CredentialInfo(credentialType: Option<Value>, subject: Option<Value>,
                                           issuedAt: int, expiresAt: int)

  /** Whether a summary's `iat` and `exp` both render as dates. */
  predicate Renderable(c: CredentialSigner.CredentialSummary)
  {
    IsoInstant(c.iat).Some? && IsoInstant(c.exp).Some?
  }

  /** `credentials.map(...)`: `None` when some credential's dates do not render (the map throws). */
  function CredentialsInfo(cs: seq<CredentialSigner.CredentialSummary>): (r: Option<seq<CredentialInfo>>)
    ensures r.Some? <==> forall i :: 0 <= i < |cs| ==> Renderable(cs[i])
    ensures r.Some? ==> |r.value| == |cs|
    ensures r.Some? ==> forall i :: 0 <= i < |cs| ==>
              && r.value[i].credentialType == cs[i].credentialType
              && r.value[i].subject == cs[i].subject
              && Some(r.value[i].issuedAt) == IsoInstant(cs[i].iat)
              && Some(r.value[i].expiresAt) == IsoInstant(cs[i].exp)
  {
    if cs == [] then Some([])
    else if !Renderable(cs[0]) then None
    else
      var rest := CredentialsInfo(cs[1..]);
      assert forall i :: 1 <= i < |cs| ==> cs[i] == cs[1..][i - 1];
      if rest.None? then None
      else
        Some([CredentialInfo(cs[0].credentialType, cs[0].subject, IsoInstant(cs[0].iat).value,
                             IsoInstant(cs[0].exp).value)] + rest.value)
  }

  datatype ResponseView = ResponseView(id: string, status: string, verified: bool, timestamp: int,
                                       credentialCount: nat, credentialsInfo: seq<CredentialInfo>)

  /** `GET /presentation/:responseId`. */
  function ReadPresentation(st: VpStore, id: string, nowMs: int): (out: Step<VpStore, ResponseView>)
    ensures out.store.requestObjects == st.requestObjects
    ensures id !in st.responses.entries ==> out.store == st && out.reply == Fail(404, "response_not_found")
    ensures id in st.responses.entries && st.responses.entries[id].expiredAt < nowMs ==>
              && out.store.responses.entries == st.responses.entries - {id}
              && out.reply == Fail(410, "response_expired")
    ensures id in st.responses.entries && st.responses.entries[id].expiredAt >= nowMs ==>
              var r := st.responses.entries[id];
              && out.store == st
              && (out.reply.Ok? <==> CredentialsInfo(r.credentials).Some?)
              && (!out.reply.Ok? ==> out.reply == Fail(500, "response_retrieval_failed"))
              && (out.reply.Ok? ==> out.reply.body == ResponseView(r.id, r.status, r.verified, r.timestamp, |r.credentials|,
                                                                   CredentialsInfo(r.credentials).value))
    ensures out.reply.Ok? ==>
              && id in st.responses.entries
              && out.reply.body.credentialCount == |st.responses.entries[id].credentials|
              && |out.reply.body.credentialsInfo| == out.reply.body.credentialCount
              && out.reply.body.verified == st.responses.entries[id].verified
  {
    match OrderedMap.Get(st.responses, id)
    case None => Step(st, Fail(404, "response_not_found"))
    case Some(r) =>
      if r.expiredAt < nowMs then
        Step(st.(responses := OrderedMap.Delete(st.responses, id)), Fail(410, "response_expired"))
      else
        match CredentialsInfo(r.credentials)
        case None => Step(st, Fail(500, "response_retrieval_failed"))
        case Some(info) => Step(st, Ok(ResponseView(r.id, r.status, r.verified, r.timestamp, |r.credentials|, info)))
  }

  /**
   * An accepted presentation's response reads back within the hour with one
   * entry per embedded credential.
   */
  lemma SubmitThenReadPresentation(st: VpStore, body: PresentationBody, verify: CredentialSigner.JwtVerifier,
                                   decode: CredentialSigner.SubjectDecoder, responseId: string, t0: int, t1: int)
    requires SubmitPresentation(st, body, verify, decode, responseId, t0).reply.Ok?
    requires t1 <= t0 + ResponseLifetimeMs
    requires forall c :: c in SubmitPresentation(st, body, verify, decode, responseId, t0).store.responses.entries[responseId].credentials
               ==> Renderable(c)
    ensures var submitted := SubmitPresentation(st, body, verify, decode, responseId, t0);
            var read := ReadPresentation(submitted.store, responseId, t1);
            && read.reply.Ok?
            && read.reply.body.verified
            && read.reply.body.credentialCount == submitted.reply.body.credentialCount
            && read.reply.body.credentialCount
                 == |CredentialSigner.EmbeddedCredentials(verify(body.vpToken.value.s, CredentialSigner.Seconds(t0)).payload)|
  {
    var submitted := SubmitPresentation(st, body, verify, decode, responseId, t0);
    var cs := submitted.store.responses.entries[responseId].credentials;
    assert forall i :: 0 <= i < |cs| ==> Renderable(cs[i]) by {
      forall i | 0 <= i < |cs| ensures Renderable(cs[i]) {
        assert cs[i] in cs;
      }
    }
  }

  // ---------------------------------------------------------------------
  // /verify
  // ---------------------------------------------------------------------

  /** The answers of `POST /verify`. */
  datatype VerifyAnswer =
      /** 400 `{valid: false, errors}`. */
    | PresentationInvalid(errors: seq<CredentialSigner.VpError>)
      /**
       * 200: the combined verdict, the presentation's summary, the claims
       * validation (`None` when it is `{valid: true}` for lack of
       * requirements) and the reported `errors`.
       */
    | Verdict(valid: bool, issuer: Option<Value>, audience: Option<Value>, issuedAt: int, expiresAt: int,
              credentials: seq<CredentialSigner.CredentialSummary>,
              claims: Option<CredentialSigner.ClaimsValidation>, reported: seq<string>)

  /**
   * `POST /verify` as written. With no `requirements`, the claims validation
   * is the bare `{valid: true}`, which has no `missingClaims`: spreading it
   * into `errors` throws and the handler answers 500. The verifier's own
   * errors are always empty by the time `errors` is built.
   */
  function VerifyAsWritten(body: PresentationBody, verify: CredentialSigner.JwtVerifier,
                           decode: CredentialSigner.SubjectDecoder, nowMs: int): (r: Reply<VerifyAnswer>)
    ensures r.Ok? ==> body.requirements.Some?
  {
    if !Given(body.vpToken) then Fail(400, "invalid_request")
    else
      var check := CheckToken(body.vpToken.value, verify, CredentialSigner.Seconds(nowMs));
      if !check.valid then Refuse(400, PresentationInvalid(check.errors))
      else
        var data := check.data.value;
        var issued := IsoInstant(data.iat);
        var expires := IsoInstant(data.exp);
        if issued.None? || expires.None? || body.requirements.None? then Fail(500, "verification_failed")
        else
          var claims := CredentialSigner.ValidatePresentationClaims(data, body.requirements.value, decode);
          Ok(Verdict(check.valid && claims.valid, data.iss, data.aud, issued.value, expires.value,
                     check.credentials, Some(claims), claims.missingClaims))
  }

  /** The condition under which a presentation reaches the `/verify` verdict. */
  predicate VerdictReachable(body: PresentationBody, verify: CredentialSigner.JwtVerifier, nowMs: int)
  {
    && Given(body.vpToken)
    && CheckToken(body.vpToken.value, verify, CredentialSigner.Seconds(nowMs)).valid
    && var data := CheckToken(body.vpToken.value, verify, CredentialSigner.Seconds(nowMs)).data.value;
    && IsoInstant(data.iat).Some? && IsoInstant(data.exp).Some?
  }

  /** As written, a good presentation checked without requirements answers 500. */
  lemma VerifyWithoutRequirementsFails(body: PresentationBody, verify: CredentialSigner.JwtVerifier,
                                       decode: CredentialSigner.SubjectDecoder, nowMs: int)
    requires VerdictReachable(body, verify, nowMs)
    requires body.requirements.None?
    ensures VerifyAsWritten(body, verify, decode, nowMs) == Fail(500, "verification_failed")
  {
  }

  /**
   * `POST /verify` with the bare `{valid: true}` contributing no missing
   * claims, so a presentation checked without requirements gets its verdict.
   */
  function Verify(body: PresentationBody, verify: CredentialSigner.JwtVerifier,
                  decode: CredentialSigner.SubjectDecoder, nowMs: int): (r: Reply<VerifyAnswer>)
    ensures !Given(body.vpToken) ==> r == Fail(400, "invalid_request")
    ensures Given(body.vpToken) && !CheckToken(body.vpToken.value, verify, CredentialSigner.Seconds(nowMs)).valid ==>
              r.Refuse? && r.status == 400 && r.body.PresentationInvalid? && |r.body.errors| == 1
    ensures r.Ok? <==> VerdictReachable(body, verify, nowMs)
    ensures r.Ok? ==> r.body.Verdict?
    ensures r.Ok? ==>
              var data := CheckToken(body.vpToken.value, verify, CredentialSigner.Seconds(nowMs)).data.value;
              && (r.body.valid <==>
                    (body.requirements.None?
                     || CredentialSigner.ValidatePresentationClaims(data, body.requirements.value, decode).valid))
              && (r.body.reported == [] <==>
                    (body.requirements.None?
                     || CredentialSigner.ValidatePresentationClaims(data, body.requirements.value, decode).missingClaims == []))
  {
    if !Given(body.vpToken) then Fail(400, "invalid_request")
    else
      var check := CheckToken(body.vpToken.value, verify, CredentialSigner.Seconds(nowMs));
      if !check.valid then Refuse(400, PresentationInvalid(check.errors))
      else
        var data := check.data.value;
        var issued := IsoInstant(data.iat);
        var expires := IsoInstant(data.exp);
        if issued.None? || expires.None? then Fail(500, "verification_failed")
        else if body.requirements.None? then
          Ok(Verdict(true, data.iss, data.aud, issued.value, expires.value, check.credentials, None, []))
        else
          var claims := CredentialSigner.ValidatePresentationClaims(data, body.requirements.value, decode);
          Ok(Verdict(check.valid && claims.valid, data.iss, data.aud, issued.value, expires.value,
                     check.credentials, Some(claims), claims.missingClaims))
  }

  /** Wherever the written handler answers, the corrected one answers the same. */
  lemma VerifyAgreesWhereWrittenAnswers(body: PresentationBody, verify: CredentialSigner.JwtVerifier,
                                        decode: CredentialSigner.SubjectDecoder, nowMs: int)
    ensures body.requirements.Some? ==> Verify(body, verify, decode, nowMs) == VerifyAsWritten(body, verify, decode, nowMs)
    ensures !VerdictReachable(body, verify, nowMs) ==> Verify(body, verify, decode, nowMs) == VerifyAsWritten(body, verify, decode, nowMs)
  {
  }

  /** `/verify` and `/presentation` share their verdict on a presentation with requirements. */
  lemma VerifyMatchesSubmit(st: VpStore, body: PresentationBody, verify: CredentialSigner.JwtVerifier,
                            decode: CredentialSigner.SubjectDecoder, responseId: string, nowMs: int)
    requires VerdictReachable(body, verify, nowMs)
    requires !Given(body.requestId)
    ensures (Verify(body, verify, decode, nowMs).body.valid)
            <==> SubmitPresentation(st, body, verify, decode, responseId, nowMs).reply.Ok?
  {
  }

  // ---------------------------------------------------------------------
  // The engine as a whole
  // ---------------------------------------------------------------------

  datatype Request =
    | CleanupTick
    | CreateCall(body: RequestObjectBody, ids: CredentialSigner.RequestFresh)
    | ReadRequestCall(requestId: string)
    | SubmitCall(pbody: PresentationBody, responseId: string)
    | ReadPresentationCall(responseId: string)
    | VerifyCall(vbody: PresentationBody)
    | StatsCall

  /** The store after serving `r` at `nowMs` under the configured `verifierUrl`. */
  function Handle(verifierUrl: Option<string>, st: VpStore, r: Request, nowMs: int, verify: CredentialSigner.JwtVerifier,
                  decode: CredentialSigner.SubjectDecoder): VpStore
  {
    match r
    case CleanupTick => Cleanup(st, nowMs).store
    case CreateCall(body, ids) => CreateRequestObject(verifierUrl, st, body, ids, nowMs).store
    case ReadRequestCall(id) => ReadRequestObject(st, id, nowMs).store
    case SubmitCall(body, id) => SubmitPresentation(st, body, verify, decode, id, nowMs).store
    case ReadPresentationCall(id) => ReadPresentation(st, id, nowMs).store
    case VerifyCall(_) => st
    case StatsCall => st
  }

  lemma CreateKeepsInvariant(verifierUrl: Option<string>, st: VpStore, body: RequestObjectBody,
                             ids: CredentialSigner.RequestFresh, nowMs: int)
    requires Invariant(st)
    ensures Invariant(CreateRequestObject(verifierUrl, st, body, ids, nowMs).store)
  {
    var out := CreateRequestObject(verifierUrl, st, body, ids, nowMs);
    OrderedMap.SetKeepsAll(st.requestObjects, ids.requestId, out.store.requestObjects.entries[ids.requestId], RequestOk);
  }

  lemma SubmitKeepsInvariant(st: VpStore, body: PresentationBody, verify: CredentialSigner.JwtVerifier,
                             decode: CredentialSigner.SubjectDecoder, responseId: string, nowMs: int)
    requires Invariant(st)
    ensures Invariant(SubmitPresentation(st, body, verify, decode, responseId, nowMs).store)
  {
    if Given(body.vpToken) {
      var check := CheckToken(body.vpToken.value, verify, CredentialSigner.Seconds(nowMs));
      if check.valid {
        OrderedMap.SetKeepsAll(st.responses, responseId, NewResponse(st, body, check, responseId, nowMs), ResponseOk);
      }
    }
  }

  lemma HandleKeepsInvariant(verifierUrl: Option<string>, st: VpStore, r: Request, nowMs: int,
                             verify: CredentialSigner.JwtVerifier, decode: CredentialSigner.SubjectDecoder)
    requires Invariant(st)
    ensures Invariant(Handle(verifierUrl, st, r, nowMs, verify, decode))
  {
    match r
    case CleanupTick => CleanupCount(st, nowMs);
    case CreateCall(body, ids) => CreateKeepsInvariant(verifierUrl, st, body, ids, nowMs);
    case ReadRequestCall(id) => OrderedMap.DeleteKeepsAll(st.requestObjects, id, RequestOk);
    case SubmitCall(body, id) => SubmitKeepsInvariant(st, body, verify, decode, id, nowMs);
    case ReadPresentationCall(id) => OrderedMap.DeleteKeepsAll(st.responses, id, ResponseOk);
    case VerifyCall(_) =>
    case StatsCall =>
  }
}

=== FILE: ordered_map.dfy ===
/**
 * A JavaScript `Map` keyed by string ids: a lookup table together with the
 * order in which keys were first inserted, which is the order a
 * `for (const [id, v] of m)` loop visits them. Setting an existing key keeps
 * its position; deleting a key removes it from the order.
 */
module OrderedMap {
  import opened Common

  datatype OMap<V> = OMap(keys: seq<string>, entries: map<string, V>)

  /** The order lists every present key exactly once and nothing else. */
  ghost predicate Valid<V>(m: OMap<V>)
  {
    && Distinct(m.keys)
    && (forall k :: k in m.entries <==> k in m.keys)
  }

  ghost predicate Distinct(ks: seq<string>)
  {
    forall i, j :: 0 <= i < j < |ks| ==> ks[i] != ks[j]
  }

  /** Two tables agree on every key except possibly `k`. */
  ghost predicate SameExcept<V>(a: map<string, V>, b: map<string, V>, k: string)
  {
    forall x :: x != k ==> (x in a <==> x in b) && (x in a ==> a[x] == b[x])
  }

  function Empty<V>(): OMap<V>
  {
    OMap([], map[])
  }

  function Get<V>(m: OMap<V>, k: string): Option<V>
  {
    if k in m.entries then Some(m.entries[k]) else None
  }

  /** `m.set(k, v)`. */
  function Set<V>(m: OMap<V>, k: string, v: V): OMap<V>
  {
    if k in m.entries then OMap(m.keys, m.entries[k := v])
    else OMap(m.keys + [k], m.entries[k := v])
  }

  /** The order without `k`. */
  function Without(ks: seq<string>, k: string): (r: seq<string>)
    ensures forall x :: x in r <==> x in ks && x != k
    ensures |r| <= |ks|
  {
    if ks == [] then []
    else if ks[0] == k then Without(ks[1..], k)
    else [ks[0]] + Without(ks[1..], k)
  }

  /** `m.delete(k)`. */
  function Delete<V>(m: OMap<V>, k: string): OMap<V>
  {
    OMap(Without(m.keys, k), m.entries - {k})
  }

  /** Whether position `i` of the order holds a present entry satisfying `p`. */
  predicate HitAt<V>(keys: seq<string>, entries: map<string, V>, p: V -> bool, i: int)
    requires 0 <= i < |keys|
  {
    keys[i] in entries && p(entries[keys[i]])
  }

  /**
   * The first key, in insertion order, whose entry satisfies `p`: the
   * `for ... of` scan with `break` used to find a session by a field value.
   */
  function FindFirst<V>(keys: seq<string>, entries: map<string, V>, p: V -> bool): (r: Option<string>)
    ensures r.None? <==> forall i :: 0 <= i < |keys| ==> !HitAt(keys, entries, p, i)
    ensures r.Some? ==> exists i :: 0 <= i < |keys| && keys[i] == r.value && HitAt(keys, entries, p, i)
                                    && forall j :: 0 <= j < i ==> !HitAt(keys, entries, p, j)
    ensures r.Some? ==> r.value in entries && p(entries[r.value])
  {
    if keys == [] then None
    else if keys[0] in entries && p(entries[keys[0]]) then
      assert HitAt(keys, entries, p, 0);
      Some(keys[0])
    else
      var rest := FindFirst(keys[1..], entries, p);
      assert forall i :: 1 <= i < |keys| ==> HitAt(keys, entries, p, i) == HitAt(keys[1..], entries, p, i - 1);
      if rest.Some? then
        ghost var i :| 0 <= i < |keys| - 1 && keys[1..][i] == rest.value && HitAt(keys[1..], entries, p, i)
                        && forall j :: 0 <= j < i ==> !HitAt(keys[1..], entries, p, j);
        assert keys[i + 1] == rest.value && HitAt(keys, entries, p, i + 1);
        assert forall j :: 0 <= j < i + 1 ==> !HitAt(keys, entries, p, j);
        rest
      else
        rest
  }

  /** The scan over a whole map. */
  function Find<V>(m: OMap<V>, p: V -> bool): Option<string>
  {
    FindFirst(m.keys, m.entries, p)
  }

  /** How many positions of the order hold an entry that `dead` holds of. */
  function DeadCount<V>(keys: seq<string>, entries: map<string, V>, dead: V -> bool): nat
  {
    if keys == [] then 0
    else (if keys[0] in entries && dead(entries[keys[0]]) then 1 else 0) + DeadCount(keys[1..], entries, dead)
  }

  /** The order without the keys whose entry `dead` holds of. */
  function Kept<V>(keys: seq<string>, entries: map<string, V>, dead: V -> bool): (r: seq<string>)
    ensures forall x :: x in r <==> x in keys && !(x in entries && dead(entries[x]))
    ensures |r| + DeadCount(keys, entries, dead) == |keys|
  {
    if keys == [] then []
    else if keys[0] in entries && dead(entries[keys[0]]) then Kept(keys[1..], entries, dead)
    else [keys[0]] + Kept(keys[1..], entries, dead)
  }

  /**
   * One `for ... of` pass that deletes every entry `dead` holds of; deleting
   * the entry being visited does not disturb the rest of the iteration.
   */
  function Sweep<V>(m: OMap<V>, dead: V -> bool): (r: OMap<V>)
    ensures forall k :: k in r.entries <==> k in m.entries && !dead(m.entries[k])
    ensures forall k :: k in r.entries ==> r.entries[k] == m.entries[k]
  {
    OMap(Kept(m.keys, m.entries, dead), map k | k in m.entries && !dead(m.entries[k]) :: m.entries[k])
  }

  /** A sequence without repetitions has as many elements as its set. */
  lemma {:induction false} DistinctCard(ks: seq<string>)
    requires Distinct(ks)
    ensures |set x | x in ks| == |ks|
  {
    if ks != [] {
      var rest := ks[1..];
      assert Distinct(rest) by {
        forall i, j | 0 <= i < j < |rest| ensures rest[i] != rest[j] {
          assert rest[i] == ks[i + 1] && rest[j] == ks[j + 1];
        }
      }
      DistinctCard(rest);
      assert ks[0] !in rest by {
        forall i | 0 <= i < |rest| ensures rest[i] != ks[0] {
          assert rest[i] == ks[i + 1];
        }
      }
      assert (set x | x in ks) == {ks[0]} + (set x | x in rest) by {
        assert ks == [ks[0]] + rest;
      }
    }
  }

  /** In a valid map, the table has as many entries as the order has keys. */
  lemma SizeIsLength<V>(m: OMap<V>)
    requires Valid(m)
    ensures |m.entries| == |m.keys|
  {
    DistinctCard(m.keys);
    assert m.entries.Keys == set x | x in m.keys;
  }

  lemma {:induction false} KeptKeepsDistinct<V>(ks: seq<string>, entries: map<string, V>, dead: V -> bool)
    requires Distinct(ks)
    ensures Distinct(Kept(ks, entries, dead))
  {
    if ks != [] {
      var rest := ks[1..];
      assert Distinct(rest) by {
        forall i, j | 0 <= i < j < |rest| ensures rest[i] != rest[j] {
          assert rest[i] == ks[i + 1] && rest[j] == ks[j + 1];
        }
      }
      KeptKeepsDistinct(rest, entries, dead);
      var tail := Kept(rest, entries, dead);
      if !(ks[0] in entries && dead(entries[ks[0]])) {
        assert ks[0] !in rest by {
          forall i | 0 <= i < |rest| ensures rest[i] != ks[0] {
            assert rest[i] == ks[i + 1];
          }
        }
        assert ks[0] !in tail;
        var r := [ks[0]] + tail;
        assert Kept(ks, entries, dead) == r;
        forall i, j | 0 <= i < j < |r| ensures r[i] != r[j] {
          assert r[j] == tail[j - 1];
          assert tail[j - 1] in tail;
          if i > 0 {
            assert r[i] == tail[i - 1];
          }
        }
      }
    }
  }

  /**
   * A sweep keeps the map valid, and the number of entries it removes is the
   * number of positions of the order whose entry is dead.
   */
  lemma SweepCount<V>(m: OMap<V>, dead: V -> bool)
    requires Valid(m)
    ensures Valid(Sweep(m, dead))
    ensures |m.entries| == |Sweep(m, dead).entries| + DeadCount(m.keys, m.entries, dead)
  {
    KeptKeepsDistinct(m.keys, m.entries, dead);
    SizeIsLength(m);
    SizeIsLength(Sweep(m, dead));
  }

  lemma {:induction false} WithoutKeepsDistinct(ks: seq<string>, k: string)
    requires Distinct(ks)
    ensures Distinct(Without(ks, k))
  {
    if ks != [] {
      var rest := ks[1..];
      assert Distinct(rest) by {
        forall i, j | 0 <= i < j < |rest| ensures rest[i] != rest[j] {
          assert rest[i] == ks[i + 1] && rest[j] == ks[j + 1];
        }
      }
      WithoutKeepsDistinct(rest, k);
      var tail := Without(rest, k);
      if ks[0] != k {
        assert ks[0] !in rest by {
          forall i | 0 <= i < |rest| ensures rest[i] != ks[0] {
            assert rest[i] == ks[i + 1];
          }
        }
        assert ks[0] !in tail;
        var r := [ks[0]] + tail;
        assert Without(ks, k) == r;
        forall i, j | 0 <= i < j < |r| ensures r[i] != r[j] {
          assert r[0] == ks[0];
          assert r[j] == tail[j - 1];
          assert tail[j - 1] in tail;
          if i > 0 {
            assert r[i] == tail[i - 1];
          }
        }
      }
    }
  }

  /** Setting a key keeps the order consistent with the table. */
  lemma SetKeepsValid<V>(m: OMap<V>, k: string, v: V)
    requires Valid(m)
    ensures Valid(Set(m, k, v))
    ensures Set(m, k, v).entries == m.entries[k := v]
    ensures k in m.entries ==> Set(m, k, v).keys == m.keys
    ensures k !in m.entries ==> Set(m, k, v).keys == m.keys + [k]
  {
    if k !in m.entries {
      var ks := m.keys + [k];
      forall i, j | 0 <= i < j < |ks| ensures ks[i] != ks[j] {
        if j == |ks| - 1 {
          assert ks[i] == m.keys[i];
          assert ks[i] in m.entries;
        }
      }
    }
  }

  /** Deleting a key keeps the order consistent with the table. */
  lemma DeleteKeepsValid<V>(m: OMap<V>, k: string)
    requires Valid(m)
    ensures Valid(Delete(m, k))
    ensures Delete(m, k).entries == m.entries - {k}
  {
    WithoutKeepsDistinct(m.keys, k);
  }

  /** Every entry satisfies `p`. */
  ghost predicate All<V>(m: OMap<V>, p: V -> bool)
  {
    forall k :: k in m.entries ==> p(m.entries[k])
  }

  /** Setting an entry that satisfies `p` keeps a valid map whose entries all satisfy `p`. */
  lemma SetKeepsAll<V>(m: OMap<V>, k: string, v: V, p: V -> bool)
    requires Valid(m) && All(m, p) && p(v)
    ensures Valid(Set(m, k, v)) && All(Set(m, k, v), p)
  {
    SetKeepsValid(m, k, v);
  }

  /** Deleting keeps a valid map whose entries all satisfy `p`. */
  lemma DeleteKeepsAll<V>(m: OMap<V>, k: string, p: V -> bool)
    requires Valid(m) && All(m, p)
    ensures Valid(Delete(m, k)) && All(Delete(m, k), p)
  {
    DeleteKeepsValid(m, k);
  }

  /** A sweep finds nothing to remove in a map where nothing is dead. */
  lemma {:induction false} NothingDead<V>(keys: seq<string>, entries: map<string, V>, dead: V -> bool)
    requires forall k :: k in entries ==> !dead(entries[k])
    ensures DeadCount(keys, entries, dead) == 0
  {
    if keys != [] {
      NothingDead(keys[1..], entries, dead);
    }
  }

  /** A first-match scan over a valid map visits every present entry. */
  lemma {:induction false} FindAllMiss<V>(m: OMap<V>, p: V -> bool)
    requires Valid(m)
    ensures Find(m, p).None? <==> forall k :: k in m.entries ==> !p(m.entries[k])
  {
    if Find(m, p).None? {
      forall k | k in m.entries ensures !p(m.entries[k]) {
        assert k in m.keys;
        var i :| 0 <= i < |m.keys| && m.keys[i] == k;
        assert !HitAt(m.keys, m.entries, p, i);
      }
    }
  }

  /** The only entry satisfying `p` is the one a scan finds. */
  lemma FindUnique<V>(m: OMap<V>, p: V -> bool, k: string)
    requires Valid(m) && k in m.entries && p(m.entries[k])
    requires forall x :: x in m.entries && x != k ==> !p(m.entries[x])
    ensures Find(m, p) == Some(k)
  {
    FindAllMiss(m, p);
  }

  /** A scan stops at the first key of the order when that entry satisfies `p`. */
  lemma FindOldest<V>(m: OMap<V>, p: V -> bool)
    requires |m.keys| > 0 && m.keys[0] in m.entries && p(m.entries[m.keys[0]])
    ensures Find(m, p) == Some(m.keys[0])
  {
  }

  /** Setting `k` changes the entry at `k` and nothing else. */
  lemma SetOnlyTouches<V>(m: OMap<V>, k: string, v: V)
    ensures k in Set(m, k, v).entries && Set(m, k, v).entries[k] == v
    ensures SameExcept(m.entries, Set(m, k, v).entries, k)
  {
  }
}

=== FILE: verification.dfy ===
/**
 * The QR-code verification engine of routes/openid4vpVerification.js:
 * verification sessions in an insertion-ordered map, created with the
 * presentation request a wallet fetches, completed or failed by the
 * wallet's callback according to the credential verifier, and read back
 * through the status and result endpoints.
 *
 * The callback has no expiry check and no guard on the prior status: a
 * later callback for the same `state` overwrites the outcome of an
 * earlier one. The model keeps this.
 */
module Verification {
  import opened Common
  import OrderedMap
  import CredentialSigner

  /** Ten minutes, in milliseconds. */
  const SessionLifetimeMs: int := 10 * 60 * 1000

  /** The only input descriptor of a QR presentation request. */
  datatype QrDescriptor = QrDescriptor(id: string, name: Value, purpose: string, formats: seq<string>,
                                       path: seq<string>, filterType: string, filterPattern: Value)

  /** The presentation request the wallet fetches. */
  datatype QrRequest = QrRequest(clientId: string, redirectUri: string, responseType: string,
                                 responseMode: string, definitionId: string,
                                 inputDescriptors: seq<QrDescriptor>, state: string, nonce: string)

  datatype VerificationSession = VerificationSession(
    id: string,
    credentialType: Value,
    request: QrRequest,
    walletUrl: string,
    createdAt: int,
    expiresAt: int,
    status: Status,
    nonce: string,
    vpToken: Option<Value>,
    submission: Option<Value>,
    completedAt: Option<int>,
    verificationResult: Option<CredentialSigner.JwtPayload>,
    error: Option<string>)

  type Sessions = OrderedMap.OMap<VerificationSession>

  /** `formatCredentialType`: a label for the two known types, any other input unchanged. */
  function FormatCredentialType(t: Value): (r: Value)
    ensures t == Str(CredentialSigner.CustomType) ==> r == Str("Custom Credential")
    ensures t == Str(CredentialSigner.PidType) ==> r == Str("EIDAS PID (Person ID)")
    ensures !CredentialSigner.IsKnownType(t) ==> r == t
    ensures Truthy(r) <==> Truthy(t)
  {
    if t == Str(CredentialSigner.CustomType) then Str("Custom Credential")
    else if t == Str(CredentialSigner.PidType) then Str("EIDAS PID (Person ID)")
    else t
  }

  // ---------------------------------------------------------------------
  // Initiate
  // ---------------------------------------------------------------------

  /** The identifiers `initiate` draws, in the order it draws them. */
  datatype InitiateIds = InitiateIds(sessionId: string, nonce: string, state: string)

  /** The answer to `initiate`; the QR image and its text are not modelled. */
  datatype Initiated = Initiated(sessionId: string, status: Status, credentialType: Value, verifier: string,
                                 walletUrl: string, presentationRequestUri: string, expiresIn: int)

  function PresentationRequestUri(sessionId: string): string
  {
    BaseUrl + "/presentation-request/" + sessionId
  }

  /** The presentation request built for credential type `t`. */
  function QrRequestFor(t: Value, ids: InitiateIds): (q: QrRequest)
    ensures q.clientId == BaseUrl && q.redirectUri == BaseUrl + "/presentation-callback"
    ensures q.responseType == "vp_token id_token" && q.responseMode == "direct_post"
    ensures |q.inputDescriptors| == 1
    ensures q.inputDescriptors[0].filterPattern == t && q.inputDescriptors[0].name == FormatCredentialType(t)
    ensures q.inputDescriptors[0].formats == [JwtVcJson]
    ensures q.state == ids.state && q.nonce == ids.nonce
  {
    var descriptor := QrDescriptor("credential", FormatCredentialType(t), "Vérification du credential",
                                   [JwtVcJson], ["$.vc.type"], "string", t);
    QrRequest(BaseUrl, BaseUrl + "/presentation-callback", "vp_token id_token", "direct_post",
              "openid4vp-request", [descriptor], ids.state, ids.nonce)
  }

  /** `POST /verification/initiate-presentation`; `credential_type` defaults only when undefined. */
  function Initiate(store: Sessions, credentialType: Option<Value>, ids: InitiateIds, nowMs: int): (out: Step<Sessions, Initiated>)
    ensures ids.sessionId in out.store.entries
    ensures var s := out.store.entries[ids.sessionId];
      && s.status == Pending
      && s.expiresAt == s.createdAt + SessionLifetimeMs && s.createdAt == nowMs
      && s.nonce == s.request.nonce
      && s.request.state == ids.state
      && s.credentialType == (if credentialType.Some? then credentialType.value else Str(CredentialSigner.CustomType))
      && s.request == QrRequestFor(s.credentialType, ids)
      && s.vpToken.None? && s.verificationResult.None?
    ensures OrderedMap.SameExcept(store.entries, out.store.entries, ids.sessionId)
    ensures out.reply.Ok? && out.reply.body.presentationRequestUri == PresentationRequestUri(ids.sessionId)
    ensures out.reply.body.expiresIn * 1000 == SessionLifetimeMs
  {
    var t := if credentialType.Some? then credentialType.value else Str(CredentialSigner.CustomType);
    var session := VerificationSession(ids.sessionId, t, QrRequestFor(t, ids), WalletUrl, nowMs,
                                       nowMs + SessionLifetimeMs, Pending, ids.nonce, None, None, None, None, None);
    Step(OrderedMap.Set(store, ids.sessionId, session),
         Ok(Initiated(ids.sessionId, Pending, t, BaseUrl, WalletUrl, PresentationRequestUri(ids.sessionId), 600)))
  }

  // ---------------------------------------------------------------------
  // Reads with lazy expiry
  // ---------------------------------------------------------------------

  /** `new Date() > session.expires_at`. */
  predicate Expired(s: VerificationSession, nowMs: int)
  {
    nowMs > s.expiresAt
  }

  /** `GET /presentation-request/:sessionId`. */
  function ReadRequest(store: Sessions, id: string, nowMs: int): (out: Step<Sessions, QrRequest>)
    ensures id !in store.entries ==> out.store == store && out.reply == Fail(404, "request_not_found")
    ensures id in store.entries && Expired(store.entries[id], nowMs) ==>
              out.store.entries == store.entries - {id} && out.reply == Fail(410, "request_expired")
    ensures id in store.entries && !Expired(store.entries[id], nowMs) ==>
              out.store == store && out.reply == Ok(store.entries[id].request)
  {
    match OrderedMap.Get(store, id)
    case None => Step(store, Fail(404, "request_not_found"))
    case Some(s) =>
      if Expired(s, nowMs) then Step(OrderedMap.Delete(store, id), Fail(410, "request_expired"))
      else Step(store, Ok(s.request))
  }

  datatype StatusView = StatusView(sessionId: string, status: Status, credentialType: Value,
                                   createdAt: int, completedAt: Option<int>)

  /** `GET /verification/presentation-status/:sessionId`. */
  function ReadStatus(store: Sessions, id: string, nowMs: int): (out: Step<Sessions, StatusView>)
    ensures id !in store.entries ==> out.store == store && out.reply == Fail(404, "session_not_found")
    ensures id in store.entries && Expired(store.entries[id], nowMs) ==>
              out.store.entries == store.entries - {id} && out.reply == Fail(410, "session_expired")
    ensures id in store.entries && !Expired(store.entries[id], nowMs) ==>
              && out.store == store && out.reply.Ok?
              && out.reply.body.status == store.entries[id].status
              && out.reply.body.completedAt == store.entries[id].completedAt
  {
    match OrderedMap.Get(store, id)
    case None => Step(store, Fail(404, "session_not_found"))
    case Some(s) =>
      if Expired(s, nowMs) then Step(OrderedMap.Delete(store, id), Fail(410, "session_expired"))
      else Step(store, Ok(StatusView(id, s.status, s.credentialType, s.createdAt, s.completedAt)))
  }

  /** The result of a completed session; the display decoding of the token is not modelled. */
  datatype ResultView = ResultView(sessionId: string, status: Status, valid: bool, vpToken: Option<Value>,
                                   completedAt: Option<int>)

  /** `GET /verification/presentation-result/:sessionId`: no expiry check, no mutation. */
  function ReadResult(store: Sessions, id: string): (out: Step<Sessions, ResultView>)
    ensures out.store == store
    ensures id !in store.entries ==> out.reply == Fail(404, "session_not_found")
    ensures id in store.entries && store.entries[id].status != Completed ==>
              out.reply == Fail(400, "presentation_not_ready")
    ensures out.reply.Ok? <==> id in store.entries && store.entries[id].status == Completed
    ensures out.reply.Ok? ==> out.reply.body.valid && out.reply.body.vpToken == store.entries[id].vpToken
  {
    match OrderedMap.Get(store, id)
    case None => Step(store, Fail(404, "session_not_found"))
    case Some(s) =>
      if s.status != Completed then Step(store, Fail(400, "presentation_not_ready"))
      else Step(store, Ok(ResultView(id, s.status, s.status == Completed, s.vpToken, s.completedAt)))
  }

  // ---------------------------------------------------------------------
  // Callback
  // ---------------------------------------------------------------------

  /** The body the wallet posts; `None` members are undefined. */
  datatype CallbackBody = CallbackBody(vpToken: Option<Value>, submission: Option<Value>, state: Option<Value>)

  datatype CallbackAck = CallbackAck(status: Status, message: string)

  /**
   * `verifyCredential(vp_token)`: `jwt.verify` throws on a token that is not
   * a string, which `verifyCredential` turns into `null` like any other failure.
   */
  function VerifyToken(verify: CredentialSigner.JwtVerifier, token: Value, nowSec: int): (r: Option<CredentialSigner.JwtPayload>)
    ensures r.Some? <==> token.Str? && verify(token.s, nowSec).Verified?
  {
    if token.Str? then CredentialSigner.VerifyCredential(verify, token.s, nowSec) else None
  }

  /** Whether a session's presentation request carries the posted `state` (`===`). */
  function StateMatches(state: Option<Value>): VerificationSession -> bool
  {
    (s: VerificationSession) => state == Some(Str(s.request.state))
  }

  /** A located session after the verifier's answer `result`. */
  function Settle(s: VerificationSession, body: CallbackBody, result: Option<CredentialSigner.JwtPayload>, nowMs: int): (t: VerificationSession)
    ensures t.status == (if result.Some? then Completed else Failed)
    ensures t.id == s.id && t.request == s.request && t.nonce == s.nonce && t.expiresAt == s.expiresAt
    ensures result.Some? ==> t.vpToken == body.vpToken && t.verificationResult == result && t.completedAt == Some(nowMs)
    ensures result.None? ==> t.vpToken == s.vpToken && t.verificationResult == s.verificationResult
  {
    if result.Some? then
      s.(status := Completed, vpToken := body.vpToken, submission := body.submission, completedAt := Some(nowMs),
         verificationResult := result)
    else
      s.(status := Failed, error := Some("Vérification de la présentation échouée"))
  }

  function AckMessage(status: Status): string
  {
    if status == Completed then "Présentation vérifiée avec succès" else "Vérification échouée"
  }

  /**
   * Whether logging `vp_token?.substring(0, 50)` throws: it does for every
   * value that is neither a string nor null/undefined, and the throw lands in
   * the handler's `catch`, before the `vp_token` check.
   */
  predicate SubstringThrows(token: Option<Value>)
  {
    token.Some? && token.value != Null && !token.value.Str?
  }

  /** `POST /presentation-callback` at `nowMs` (the verifier sees `nowMs / 1000`). */
  function Callback(store: Sessions, body: CallbackBody, verify: CredentialSigner.JwtVerifier, nowMs: int): (out: Step<Sessions, CallbackAck>)
    ensures SubstringThrows(body.vpToken) ==> out.store == store && out.reply == Fail(500, "presentation_processing_failed")
    ensures !SubstringThrows(body.vpToken) && !Given(body.vpToken) ==>
              out.store == store && out.reply == Fail(400, "invalid_request")
    ensures Given(body.vpToken) && !SubstringThrows(body.vpToken)
            && (forall k :: k in store.entries ==> !StateMatches(body.state)(store.entries[k])) ==>
              out.store == store && out.reply == Fail(400, "invalid_state")
    ensures out.reply.Fail? ==> out.store == store && (out.reply.status == 400 || out.reply.status == 500)
    ensures out.reply.Fail? ==> (out.reply.status == 500 <==> SubstringThrows(body.vpToken))
    ensures out.reply.Ok? ==>
              && Given(body.vpToken) && body.vpToken.value.Str?
              && exists id :: id in store.entries && StateMatches(body.state)(store.entries[id])
                           && id in out.store.entries
                           && out.store.entries == store.entries[id := out.store.entries[id]]
                           && out.store.entries[id].status == out.reply.body.status
                           && (out.reply.body.status == Completed <==>
                                 VerifyToken(verify, body.vpToken.value, CredentialSigner.Seconds(nowMs)).Some?)
  {
    if SubstringThrows(body.vpToken) then Step(store, Fail(500, "presentation_processing_failed"))
    else if !Given(body.vpToken) then Step(store, Fail(400, "invalid_request"))
    else
      match OrderedMap.Find(store, StateMatches(body.state))
      case None => Step(store, Fail(400, "invalid_state"))
      case Some(id) =>
        var result := VerifyToken(verify, body.vpToken.value, CredentialSigner.Seconds(nowMs));
        var s := Settle(store.entries[id], body, result, nowMs);
        Step(OrderedMap.Set(store, id, s), Ok(CallbackAck(s.status, AckMessage(s.status))))
  }

  // ---------------------------------------------------------------------
  // The engine as a whole
  // ---------------------------------------------------------------------

  datatype Request =
    | InitiateCall(credentialType: Option<Value>, ids: InitiateIds)
    | RequestCall(sessionId: string)
    | CallbackCall(body: CallbackBody)
    | StatusCall(sessionId: string)
    | ResultCall(sessionId: string)

  /** The session map after serving `r` at `nowMs`. */
  function Handle(store: Sessions, r: Request, nowMs: int, verify: CredentialSigner.JwtVerifier): Sessions
  {
    match r
    case InitiateCall(t, ids) => Initiate(store, t, ids, nowMs).store
    case RequestCall(id) => ReadRequest(store, id, nowMs).store
    case CallbackCall(body) => Callback(store, body, verify, nowMs).store
    case StatusCall(id) => ReadStatus(store, id, nowMs).store
    case ResultCall(id) => ReadResult(store, id).store
  }

  /**
   * What every reachable session map satisfies: the order matches the
   * table, the stored nonce is the request's, and a completed session holds
   * the token and the verifier's payload.
   */
  ghost predicate Invariant(store: Sessions)
  {
    OrderedMap.Valid(store) && OrderedMap.All(store, SessionOk)
  }

  /** One session's share of the invariant. */
  predicate SessionOk(s: VerificationSession)
  {
    && s.nonce == s.request.nonce
    && (s.status == Completed ==> s.vpToken.Some? && s.verificationResult.Some?)
  }

  lemma CallbackKeepsInvariant(store: Sessions, body: CallbackBody, verify: CredentialSigner.JwtVerifier, nowMs: int)
    requires Invariant(store)
    ensures Invariant(Callback(store, body, verify, nowMs).store)
  {
    if Given(body.vpToken) && !SubstringThrows(body.vpToken) {
      var found := OrderedMap.Find(store, StateMatches(body.state));
      if found.Some? {
        var id := found.value;
        var result := VerifyToken(verify, body.vpToken.value, CredentialSigner.Seconds(nowMs));
        var s := Settle(store.entries[id], body, result, nowMs);
        assert SessionOk(store.entries[id]);
        OrderedMap.SetKeepsAll(store, id, s, SessionOk);
      }
    }
  }

  /** Every request keeps the invariant. */
  lemma HandleKeepsInvariant(store: Sessions, r: Request, nowMs: int, verify: CredentialSigner.JwtVerifier)
    requires Invariant(store)
    ensures Invariant(Handle(store, r, nowMs, verify))
  {
    match r
    case InitiateCall(t, ids) =>
      var out := Initiate(store, t, ids, nowMs);
      OrderedMap.SetKeepsAll(store, ids.sessionId, out.store.entries[ids.sessionId], SessionOk);
    case RequestCall(id) => OrderedMap.DeleteKeepsAll(store, id, SessionOk);
    case CallbackCall(body) => CallbackKeepsInvariant(store, body, verify, nowMs);
    case StatusCall(id) => OrderedMap.DeleteKeepsAll(store, id, SessionOk);
    case ResultCall(id) =>
  }

  /** A status leaves `pending` only through the callback. */
  lemma OnlyCallbackSettles(store: Sessions, r: Request, nowMs: int, verify: CredentialSigner.JwtVerifier, id: string)
    requires id in store.entries && store.entries[id].status == Pending
    requires id in Handle(store, r, nowMs, verify).entries
    requires Handle(store, r, nowMs, verify).entries[id].status != Pending
    ensures r.CallbackCall?
  {
  }

  // ---------------------------------------------------------------------
  // Properties across requests
  // ---------------------------------------------------------------------

  /** The request the wallet fetches is the one `initiate` built, as long as it is live. */
  lemma InitiateThenReadRequest(store: Sessions, t: Option<Value>, ids: InitiateIds, t0: int, t1: int)
    requires t1 <= t0 + SessionLifetimeMs
    ensures var after := Initiate(store, t, ids, t0).store;
            var read := ReadRequest(after, ids.sessionId, t1);
            && read.store == after
            && read.reply == Ok(QrRequestFor(if t.Some? then t.value else Str(CredentialSigner.CustomType), ids))
            && read.reply.body.state == ids.state
            && read.reply.body.nonce == after.entries[ids.sessionId].nonce
  {
  }

  /**
   * The callback settles the session `initiate` created when the wallet
   * echoes its `state`, provided no older session carries the same state.
   */
  lemma InitiateThenCallback(store: Sessions, t: Option<Value>, ids: InitiateIds, t0: int,
                             token: string, submission: Option<Value>, verify: CredentialSigner.JwtVerifier, t1: int)
    requires Invariant(store)
    requires forall k :: k in store.entries ==> store.entries[k].request.state != ids.state
    requires token != ""
    ensures var after := Initiate(store, t, ids, t0).store;
            var out := Callback(after, CallbackBody(Some(Str(token)), submission, Some(Str(ids.state))), verify, t1);
            && out.reply.Ok?
            && ids.sessionId in out.store.entries
            && ((out.store.entries[ids.sessionId].status == Completed)
                <==> verify(token, CredentialSigner.Seconds(t1)).Verified?)
  {
    var after := Initiate(store, t, ids, t0).store;
    OrderedMap.SetKeepsValid(store, ids.sessionId, after.entries[ids.sessionId]);
    var body := CallbackBody(Some(Str(token)), submission, Some(Str(ids.state)));
    OrderedMap.FindUnique(after, StateMatches(body.state), ids.sessionId);
    CallbackSettlesFound(after, body, verify, t1, ids.sessionId);
  }

  /** A non-empty string token settles the session the scan finds, by the verifier's answer. */
  lemma CallbackSettlesFound(store: Sessions, body: CallbackBody, verify: CredentialSigner.JwtVerifier, nowMs: int, id: string)
    requires body.vpToken.Some? && body.vpToken.value.Str? && body.vpToken.value.s != ""
    requires OrderedMap.Find(store, StateMatches(body.state)) == Some(id)
    ensures var out := Callback(store, body, verify, nowMs);
            && out.reply.Ok?
            && id in out.store.entries
            && ((out.store.entries[id].status == Completed)
                <==> VerifyToken(verify, body.vpToken.value, CredentialSigner.Seconds(nowMs)).Some?)
  {
  }

  /** Without a prior-status guard, a failing callback turns a completed session into a failed one. */
  lemma CompletedCanBeOverturned(store: Sessions, id: string, body: CallbackBody, verify: CredentialSigner.JwtVerifier, nowMs: int)
    requires id in store.entries && store.entries[id].status == Completed
    requires body.vpToken.Some? && body.vpToken.value.Str? && body.vpToken.value.s != ""
    requires OrderedMap.Find(store, StateMatches(body.state)) == Some(id)
    requires VerifyToken(verify, body.vpToken.value, CredentialSigner.Seconds(nowMs)).None?
    ensures var out := Callback(store, body, verify, nowMs);
            && out.store.entries[id].status == Failed
            && out.store.entries[id].vpToken == store.entries[id].vpToken
            && ReadResult(out.store, id).reply == Fail(400, "presentation_not_ready")
  {
  }
}
